=== FILE: README.md ===
# Isolation forest core, modelled in Dafny

This project models the tree-building core of a C isolation-forest library,
in its current form (`src/isolation_forest.c`) and its older root-level form
(`isolation_forest.c`). An isolation tree splits a sample of dataset rows
recursively. At each node it picks a random feature and a random threshold
between that feature's minimum and maximum over the rows. It partitions the
rows in place so the rows below the threshold come first. Then it recurses
on both halves until a depth limit or a segment of at most one row stops
it. A query is scored by how many splits it passes before it reaches a leaf.

Modules, leaves first:

- `Rand` (`rand.dfy`): the values returned by `rand()`, passed in as a stream
  `nat -> RandValue` with the position of the next unread value threaded
  through. Also holds `rand() % n` and `rand() / RAND_MAX`.
- `Depth` (`depth.dfy`): `max_depth = ceil(log2(max(num_samples, 2))) + 2`,
  using an exact integer ceiling of log2.
- `ITree` (`itree.dfy`): the `Tree` datatype (`Leaf(size)` /
  `Node(feat, split, size, left, right)`), height, leaf-size sum, and the
  path-length walk (`itree_get_path_len`). The predicate `Isolates(t, rows)`
  says that `t` is the isolation tree of `rows` in their final order.
- `Builder` (`builder.dfy`): `create_node`. It has the min/max scan, the
  threshold formula, the swap-based partition loop, and the recursion. The
  row-pointer array is a `seq<Row>`, and each step returns it rearranged.
- `Sampler` (`sampler.dfy`): the partial Fisher–Yates shuffle of
  `ndarray_sample_without_replacement` (Knuth, TAOCP Vol. 2, section 3.4.2,
  Algorithm P), over row indices.
- `Forest` (`forest.dfy`): how `iforest_train` splits the trees among
  workers, each worker's sample-then-build loop (run one worker after
  another), and the path averaging of `iforest_score`.
- `Legacy` (`legacy.dfy`): what differs in the older root-level file. Its
  sampler draws with replacement. It reads the feature count from each
  segment's first row. It splits the trees among exactly the configured
  number of threads. Its path walk (`isolation_forest.c:81-94`) is the same
  loop as `ITree.PathLen`.

Feature values are `real`. Integers are unbounded. Randomness is an explicit
input, so every operation is a function of its arguments.

Behaviour of the code worth knowing:
- The code does not stop when the chosen feature is constant on the segment.
  The split then equals that constant, the left child is an empty leaf, and
  the right child gets every row again (`ITree.ConstantFeatureSplit`).
  Recursion continues until the depth limit.
- The threshold is drawn from the closed range `[min, max]`. Over the
  reals, a draw of `RAND_MAX` gives exactly `max`.
- The worker count is `num_threads > 0 ? min(num_threads, num_trees) : 1`.
  When `num_threads > 0` and there are no trees, this is 0 (see Findings).
- All workers share the one process-wide `rand()`, each reseeding it with the
  same seed. They do not have independent streams. The model gives each
  worker a stream of its own.
- Leaves add no size-correction term to the path length. The isolation
  forest of Liu, Ting and Zhou (2008) adds `c(size)` at each leaf; this code
  counts only the internal nodes passed.

## Model

| member | source | states |
|---|---|---|
| Rand.RandMod | src/isolation_forest.c:78 | `rand() % n` for a positive `n` is an index in `[0, n)`, and it is the draw itself when the draw is below `n` |
| Rand.Unit | src/isolation_forest.c:91 | `rand() / RAND_MAX` lies in `[0, 1]`; it is 0 exactly for a draw of 0 and 1 exactly for a draw of `RAND_MAX` |
| Rand.RandModReachesAll | src/isolation_forest.c:78 | every feature index below `n_features` is chosen by some draw |
| Depth.CeilLog2 | src/isolation_forest.c:235 | the result `k` is the least exponent with `n <= 2^k` |
| Depth.CeilLog2Unique | src/isolation_forest.c:235 | no other exponent has both defining properties of the ceiling of log2 |
| Depth.MaxDepth | src/isolation_forest.c:235 | the depth limit is at least 3, `2^(max_depth - 2)` covers the configured sample size, and `max_depth - 2` is the least such exponent for `max(num_samples, 2)` |
| ITree.Walk | src/isolation_forest.c:112-125 | reference path length: the number of internal nodes from the root to the leaf `x` is routed to, going left iff `x[feat] < split`; never more than the tree's height |
| ITree.PathLen | src/isolation_forest.c:112-125 | the iterative walk ends at a leaf and returns exactly the reference count `Walk`, hence at most the height |
| ITree.IsolatesLeafSum | src/isolation_forest.c:103-107 | in an isolation tree of `rows`, the leaf sizes add up to the number of rows: no row is lost or counted twice |
| ITree.RightChildNonEmpty | src/isolation_forest.c:91-100 | the right child of a split always gets at least one row, since the row with the feature's maximum is never below the split |
| ITree.ConstantFeatureSplit | src/isolation_forest.c:91-99 | if the split feature is constant on the rows, the split equals that constant, the left child is `Leaf(0)` and the right child holds every row |
| ITree.TrainingRowWalk | src/isolation_forest.c:92-125 | a row the tree was built from is routed by the walk to the very leaf the partition put it in: its path length is that leaf's depth |
| ITree.StopsAtHeight | src/isolation_forest.c:70-74 | a tree in which every node obeys the stopping rule (leaf exactly when at or below `max_depth` or holding at most one row) has no leaf deeper than `max_depth` |
| Builder.SegExtremes | src/isolation_forest.c:79-87 | the reference minimum and maximum of a feature bound that feature on every row of the segment, and rows of the segment attain both |
| Builder.FeatureRange | src/isolation_forest.c:79-87 | the scanned min and max bound the chosen feature of every row in `[start, end)`, rows of the segment attain both, and they are the reference `SegMin` and `SegMax` of the segment |
| Builder.SplitValue | src/isolation_forest.c:91 | the threshold lies in `[min, max]`; it equals `min` when `min == max` or the draw is 0, and `max` when the draw is `RAND_MAX` |
| Builder.Partition | src/isolation_forest.c:92-100 | `start <= pivot <= end`; rows in `[start, pivot)` are below the threshold and rows in `[pivot, end)` are not; the segment is a permutation of its old contents and rows outside it are unchanged |
| Builder.Split | src/isolation_forest.c:76-100 | the feature is `rand() % n_features` of the draw at `pos` and the threshold `SplitValue` of that feature's segment minimum and maximum at the draw at `pos + 1`; the segment is permuted with the rows below the threshold before `pivot` and the others from `pivot` on, and both sides keep `n_features` values per row |
| Builder.BuildNodeIsolates | src/isolation_forest.c:103-107 | after the two recursive builds, each row still lies on the side of the split the partition put it on, so the new node isolates the whole segment, whose rows are a permutation of the original ones |
| Builder.Build | src/isolation_forest.c:60-109 | every node of the tree obeys the stopping rule, and the root is a leaf iff `depth >= max_depth` or the segment has at most one row; `size == end - start`; the tree isolates the rearranged segment; leaf sizes sum to `end - start`; no leaf is deeper than `max_depth`; split features are below `n_features`; only the segment is permuted; exactly two draws are read per internal node; and every node, not only the root, is `Drawn`: its feature is `rand() % n_features` and its threshold `SplitValue` of the minimum and maximum over the rows it holds, from the two draws at its place in the order the recursion reads them (the node first, then its left subtree, then its right subtree) |
| Builder.BuildWhole | src/isolation_forest.c:197-199 | `create_node` over a whole sample from depth 0: the rows are a permutation of the sample, the tree isolates them, obeys the stopping rule, has leaf sum equal to the sample size and height at most `max_depth`, and every node is `Drawn` from the draws at `pos` on, two per internal node |
| Builder.DrawnFits | src/isolation_forest.c:78 | a tree whose every feature was drawn as `rand() % n_features` splits only on features below `n_features` |
| Sampler.SwapIndex | src/isolation_forest.c:164 | the swap position `i + rand() % (total - i)` lies in `[i, total)` |
| Sampler.SwapIndexReachesAll | src/isolation_forest.c:164 | every position in `[i, total)` is chosen by some draw |
| Sampler.Identity | src/isolation_forest.c:156-159 | the scratch array starts as the row indices `0 .. total - 1` in order |
| Sampler.SampleWithoutReplacement | src/isolation_forest.c:136-177 | the size written back is `min(requested, total)`; the indices returned are the first `size` slots of the scratch array after swapping slot `i` with slot `i + draw(pos + i) % (total - i)` for each `i < size`; they are below `total` and pairwise distinct, a permutation of all rows when `size == total`; `size` draws are read |
| Sampler.ShuffledPermutation | src/isolation_forest.c:156-168 | after any number of swaps the scratch array still holds every row index exactly once |
| Sampler.ShuffledFrame | src/isolation_forest.c:162-168 | the first `n` swaps read only the draws `pos .. pos + n - 1` |
| Sampler.EverySampleReachable | src/isolation_forest.c:156-177 | when the dataset has no more rows than `rand()` has values, every ordered selection of distinct row indices is returned for some sequence of draws |
| Forest.WorkerCount | src/isolation_forest.c:251 | one worker when `num_threads <= 0`, otherwise no more than `num_threads` or `num_trees`; zero workers exactly when `num_threads > 0` and there are no trees |
| Forest.ClampedWorkerCount | src/isolation_forest.c:251 | at least one worker, at most `num_trees` of them when there are trees; equal to the code's count whenever there is a tree |
| Forest.RangeOfBounds | src/isolation_forest.c:259-260 | a worker's range `[i*tpt, (i+1)*tpt)` is well ordered, ends where the next begins and no later than `num_trees`, is non-empty when workers do not outnumber trees, and is empty (except the last) when they do |
| Forest.RangeOfSize | src/isolation_forest.c:254-260 | every range but the last holds `trees_per_thread = num_trees / T` trees, and the last one `num_trees - (T - 1) * trees_per_thread`, which is `num_trees / T + num_trees % T` |
| Forest.SplitRanges | src/isolation_forest.c:254-260 | `T` ranges, from 0 up to `num_trees`, each ending where the next begins and none past `num_trees`; all non-empty when `T <= num_trees`; `Balanced`: every range but the last holds `num_trees / T` trees, and the last one `num_trees / T + num_trees % T` |
| Forest.ContiguousOrdered | src/isolation_forest.c:256-260 | an earlier worker's range ends before a later worker's begins |
| Forest.ContiguousPartition | src/isolation_forest.c:256-260 | every tree index in `[0, num_trees)` belongs to exactly one worker's range |
| Forest.WorkerRanges | src/isolation_forest.c:251-260 | as written: the split fails with a division by zero exactly when `num_threads > 0` and there are no trees; otherwise it yields contiguous ranges covering all trees, one per worker, non-empty when there are trees, with the sizes of `Balanced` |
| Forest.TrainRanges | src/isolation_forest.c:251-260 | corrected split: one range per clamped worker, contiguous from 0 to `num_trees`, with the sizes of `Balanced` |
| Forest.TrainTreeAsWritten | src/isolation_forest.c:188-201 | as written: the sampler's indices for the draws from `pos` are `min(num_samples, rows)` distinct dataset rows; building fails exactly when more rows are requested than the dataset holds and `create_node` would split (`max_depth > 0` and at least two rows requested); when more rows are requested but it would not split, the tree is the single `Leaf(num_samples)`, larger than the sample; when the counts agree the tree is `Grown` over those rows (isolating the rearranged sample, existing features only); every tree built obeys the stopping rule, has leaf sum `num_samples` and height at most `max_depth`, and is `DrawnAt` `pos`, with the build's draws right after the sampler's |
| Forest.TrainTree | src/isolation_forest.c:188-201 | corrected step (see Findings), with the clamped end: the picked indices are the sampler's output for the draws from `pos`; the sample holds `min(num_samples, rows)` distinct dataset rows, and the tree isolates them with leaf sizes summing to that count, within `max_depth`, splitting only on existing features; every node is `Drawn` from the draws that follow the sampler's, two per internal node |
| Forest.TrainRange | src/isolation_forest.c:187-201 | corrected per-worker loop: exactly `count` trees, each `Grown` from `min(num_samples, rows)` distinct rows and `DrawnAt` its start in the worker's stream; the first tree starts at position 0, and each later one starts where the previous one's sampler and build draws end |
| Forest.TrainForest | src/isolation_forest.c:249-267 | corrected trainer (worker count clamped to at least one and each tree built over the clamped sample, see Findings): exactly `num_trees` trees, each `Grown` with leaf sum `min(num_samples, rows)` and height at most `max_depth`; tree `k` of worker `w`'s range is `DrawnAt` its start in `w`'s stream, the first tree of each range starting at 0 and each later one where its predecessor's draws end |
| Forest.AveragePathLength | src/isolation_forest.c:269-277 | the average is the sum of the per-tree path lengths divided by the tree count, and lies between 0 and the tallest tree's height; with no trees there is no average |
| Legacy.LegacyCreateNode | isolation_forest.c:34-78 | over rows of one common width, the older builder has `Build`'s guarantees: a leaf of size `end - start` exactly when `depth >= max_depth` or at most one row remains, the stopping rule at every node, isolation of the permuted segment, leaf sum `end - start`, the depth bound, and split features below that width; two draws per internal node, and every node `Drawn` with features `rand() % data[start].num_features` |
| Legacy.SampleWithReplacement | isolation_forest.c:114-117 | exactly `subsample_size` slots, each filled with a row index in `[0, data_size)` |
| Legacy.ReplacementMayRepeat | isolation_forest.c:114-117 | unlike the current sampler, the older one can pick the same row for two slots |
| Legacy.LegacyTrainTree | isolation_forest.c:110-123 | the older per-tree step draws its slots with replacement from the first `data_size` rows, as `SampleWithReplacement` does from the draws at `pos`, and gives a sample of exactly `subsample_size` of those rows and the tree `LegacyCreateNode` builds over them: it obeys the stopping rule at every node, isolates them, and has leaf sum `subsample_size` and height at most `max_depth`; every node is `Drawn` with the first row's feature count from the draws right after the sampler's |
| Legacy.LegacyWorkerRanges | isolation_forest.c:150-160 | zero threads divide by zero; otherwise one contiguous range per thread covering `[0, num_trees)`, all non-empty when threads do not outnumber trees, all but the last empty when they do; each but the last holds `num_trees / num_threads` trees and the last one the remainder on top |

## Left out

- Threads: `pthread_create`/`pthread_join` and the concurrent writes into the
  tree array are not modelled. The workers run one after another. That the
  writes never collide follows from `Forest.ContiguousPartition`.
- The shared `rand()`: calls from concurrent workers interleave in an order
  the code does not fix, and `srand` reseeds it in every worker. Each worker
  gets a stream of its own instead. `RAND_MAX` is fixed at the GNU C
  library's `0x7fffffff`.
- The score `pow(2, -avg / C(n))` and the `C(n)` macro: these use
  floating-point `log` and `pow`. Only the average path length is modelled.
- Floating-point rounding: thresholds are computed exactly over the reals.
  In doubles, `min + (max - min) * 1.0` can round past `max`. All rows could
  then fall below the split and the right child would be empty, which
  `ITree.RightChildNonEmpty` rules out over the reals.
- The double computation of `ceil(log2(...))` is replaced by an exact
  integer ceiling of log2. The two agree for every sample size an `int` can
  hold.
- Fixed-width integers: negative configuration values (a negative
  `num_samples` becomes a huge `uint64_t` in the sampler) and the `int`
  swap index are not modelled. Sizes
  and counts are `nat`.
- Memory management: `malloc`/`calloc` failure paths, `CHECK_PTR`,
  `free_tree` and `iforest_free` are not modelled.
- `iforest_init` is modelled only as `Depth.MaxDepth` and the fields of
  `Forest.Config`. `contamination` is not read by the modelled code.
  `random_state` is read by every worker (`src/isolation_forest.c:182`) and
  passed to `srand` (`src/isolation_forest.c:187`); the model abstracts that
  seed into each worker's stream, which stands for the values `rand()`
  returns after the reseed, so the seed itself is not a field.
- The strided `ndarray_t` storage is not part of this model. The dataset is
  a sequence of rows, and each row is a sequence of feature values.
- The logger (`src/logger.c`), the test programs and the Python scripts are
  file and console I/O.
- Sampler.SampleWithoutReplacement: states which rows each sequence of
  draws selects, and `Sampler.EverySampleReachable` states that every
  ordered selection of distinct rows is selected by some draws. It does not
  state that the sample is uniformly distributed, which is a probabilistic
  claim about `rand()`.
- Legacy.LegacyCreateNode: requires every row of the segment to have the
  same number of features. The older code only needs each row to have the
  feature it reads. The bundled demonstration program loads every row with the same width.
- Builder.Build: requires `n_features > 0` whenever the node would split
  (`depth < max_depth` and at least two rows). With no features the code
  computes `rand() % 0` at `src/isolation_forest.c:78`, which is undefined
  behaviour in C; the model leaves that call out rather than give it a value.
- Forest.TrainTreeAsWritten: requires `n_features > 0` unless
  `max_depth == 0` or at most one row is requested, for the same `rand() % 0`
  at `src/isolation_forest.c:78`.
- Forest.TrainTree: requires `n_features > 0` unless `max_depth == 0` or the
  clamped sample has at most one row, for the same `rand() % 0`.
- Forest.TrainRange: requires `n_features > 0` unless `max_depth == 0` or
  the clamped sample has at most one row, for the same `rand() % 0` at
  `src/isolation_forest.c:78`.
- Forest.TrainForest: requires `n_features > 0` unless the clamped sample
  has at most one row (the depth limit is always at least 3), for the same
  `rand() % 0`.
- Legacy.LegacyCreateNode: requires the segment's first row to have at least
  one feature whenever the node would split. With none the older code
  computes `rand() % 0` at `isolation_forest.c:48`.
- Legacy.SampleWithReplacement: requires `data_size > 0` when any slot is
  drawn. With no rows the older code computes `rand() % 0` at
  `isolation_forest.c:115`.
- Legacy.LegacyTrainTree: requires `data_size > 0` when any slot is drawn
  (`rand() % 0` at `isolation_forest.c:115`), `data_size` no larger than the
  rows passed in (the code reads `data[idx]` with no check), and the first
  row to have a feature whenever the root would split
  (`isolation_forest.c:48`).
- Builder.Build: requires every row of the segment to have at least
  `n_features` values. The current code gets that count from the ndarray's
  second dimension, so every row has exactly that many values.

## Findings

| source | as written | input that shows it | evidently intended | confidence | as-written member | corrected member |
|---|---|---|---|---|---|---|
| src/isolation_forest.c:197-199 | `create_node` is called with `end = forest->num_samples`, the requested count, not with the clamped `sample_size` the sampler wrote back at line 140 | a 10-row dataset with `num_samples = 1000`: the subsample has 10 entries but `create_node` scans and swaps entries 0..999 (with `max_depth == 0` or `num_samples <= 1` it instead returns a leaf of size `num_samples` without reading, still larger than the sample) | pass the clamped `sample_size` as `end`, so that each tree covers `min(num_samples, rows)` rows | high; not executed | Forest.TrainTreeAsWritten | Forest.TrainTree |
| src/isolation_forest.c:251-254 | the worker count is `min(num_threads, num_trees)` for a positive thread count, which is 0 when `num_trees == 0`, and line 254 then divides by it | `num_trees = 0` (which `iforest_init` also sets at line 243 when the tree array cannot be allocated) with `num_threads = 4` | clamp the worker count to at least one, so training with no trees does nothing | medium; not executed | Forest.WorkerRanges | Forest.ClampedWorkerCount |

=== FILE: builder.dfy ===
/** `create_node` of the current implementation: recursive random splitting
    of a segment `[start, end)` of the sample, partitioned in place. The sample
    is the array of row pointers; the model passes it as a sequence and
    returns the rearranged sequence. */
module Builder {
  import opened Rand
  import opened ITree

  /** Every row of `s[lo..hi]` has at least `w` features. */
  predicate Wide(s: seq<Row>, lo: nat, hi: nat, w: nat)
    requires lo <= hi <= |s|
  {
    forall i :: lo <= i < hi ==> w <= |s[i]|
  }

  /** `b` rearranges the rows of `a` inside `[lo, hi)` and leaves every other
      position alone. */
  predicate Permutes(b: seq<Row>, a: seq<Row>, lo: nat, hi: nat)
    requires lo <= hi <= |a|
  {
    |b| == |a| && b[..lo] == a[..lo] && b[hi..] == a[hi..] &&
    multiset(b[lo..hi]) == multiset(a[lo..hi])
  }

  /** Smallest value of feature `f` over the rows `seg` (see `SegExtremes`). */
  function SegMin(seg: seq<Row>, f: nat): real
    requires |seg| > 0
    requires forall i :: 0 <= i < |seg| ==> f < |seg[i]|
  {
    if |seg| == 1 then seg[0][f]
    else
      var m := SegMin(seg[..|seg| - 1], f);
      if seg[|seg| - 1][f] < m then seg[|seg| - 1][f] else m
  }

  /** Largest value of feature `f` over the rows `seg` (see `SegExtremes`). */
  function SegMax(seg: seq<Row>, f: nat): real
    requires |seg| > 0
    requires forall i :: 0 <= i < |seg| ==> f < |seg[i]|
  {
    if |seg| == 1 then seg[0][f]
    else
      var m := SegMax(seg[..|seg| - 1], f);
      if seg[|seg| - 1][f] > m then seg[|seg| - 1][f] else m
  }

  /** `SegMin` and `SegMax` are the minimum and the maximum of the feature:
      every row lies between them and rows attain both. */
  lemma {:induction false} SegExtremes(seg: seq<Row>, f: nat)
    requires |seg| > 0
    requires forall i :: 0 <= i < |seg| ==> f < |seg[i]|
    ensures forall i :: 0 <= i < |seg| ==> SegMin(seg, f) <= seg[i][f] <= SegMax(seg, f)
    ensures exists i :: 0 <= i < |seg| && seg[i][f] == SegMin(seg, f)
    ensures exists i :: 0 <= i < |seg| && seg[i][f] == SegMax(seg, f)
  {
    if |seg| > 1 {
      var init := seg[..|seg| - 1];
      SegExtremes(init, f);
      assert forall i :: 0 <= i < |init| ==> init[i] == seg[i];
      var a :| 0 <= a < |init| && init[a][f] == SegMin(init, f);
      var b :| 0 <= b < |init| && init[b][f] == SegMax(init, f);
      assert seg[a] == init[a] && seg[b] == init[b];
    }
  }

  /** The threshold `create_node` draws for the rows `seg` split on feature
      `f`: `SplitValue` of the feature's minimum and maximum. */
  function Threshold(seg: seq<Row>, f: nat, raw: RandValue): real
    requires |seg| > 0
    requires forall i :: 0 <= i < |seg| ==> f < |seg[i]|
  {
    SegExtremes(seg, f);
    SplitValue(SegMin(seg, f), SegMax(seg, f), raw)
  }

  /** The min/max scan over feature `f` of the segment: bounds that every
      row respects and that some row attains. */
  method FeatureRange(s: seq<Row>, start: nat, end: nat, f: nat) returns (lo: real, hi: real)
    requires start < end <= |s|
    requires Wide(s, start, end, f + 1)
    ensures lo <= hi
    ensures forall i :: start <= i < end ==> lo <= s[i][f] <= hi
    ensures exists i :: start <= i < end && s[i][f] == lo
    ensures exists i :: start <= i < end && s[i][f] == hi
    ensures lo == SegMin(s[start..end], f) && hi == SegMax(s[start..end], f)
  {
    lo := s[start][f];
    hi := lo;
    ghost var iLo, iHi := start, start;
    var i := start + 1;
    while i < end
      invariant start < i <= end
      invariant forall k :: start <= k < i ==> lo <= s[k][f] <= hi
      invariant start <= iLo < i && s[iLo][f] == lo
      invariant start <= iHi < i && s[iHi][f] == hi
    {
      var val := s[i][f];
      if val < lo {
        lo, iLo := val, i;
      }
      if val > hi {
        hi, iHi := val, i;
      }
      i := i + 1;
    }
    ExtremesAgree(s, start, end, f, lo, hi);
  }

  /** Bounds that every row of the segment respects and that rows attain
      are its minimum and maximum. */
  lemma ExtremesAgree(s: seq<Row>, start: nat, end: nat, f: nat, lo: real, hi: real)
    requires start < end <= |s|
    requires Wide(s, start, end, f + 1)
    requires forall i :: start <= i < end ==> lo <= s[i][f] <= hi
    requires exists i :: start <= i < end && s[i][f] == lo
    requires exists i :: start <= i < end && s[i][f] == hi
    ensures lo == SegMin(s[start..end], f) && hi == SegMax(s[start..end], f)
  {
    var seg := s[start..end];
    SegExtremes(seg, f);
    var a :| 0 <= a < |seg| && seg[a][f] == SegMin(seg, f);
    var b :| 0 <= b < |seg| && seg[b][f] == SegMax(seg, f);
    var iLo :| start <= iLo < end && s[iLo][f] == lo;
    var iHi :| start <= iHi < end && s[iHi][f] == hi;
    assert seg[iLo - start] == s[iLo] && seg[iHi - start] == s[iHi];
    assert seg[a] == s[start + a] && seg[b] == s[start + b];
  }

  /** `min + (max - min) * (rand() / RAND_MAX)`: a threshold in `[min, max]`
      that hits either end for the extreme draws. */
  function SplitValue(lo: real, hi: real, raw: RandValue): (v: real)
    requires lo <= hi
    ensures lo <= v <= hi
    ensures raw == 0 || lo == hi ==> v == lo
    ensures raw == RandMax ==> v == hi
  {
    var u := Unit(raw);
    assert 0.0 <= (hi - lo) * u <= hi - lo by {
      MulNonneg(hi - lo, u);
      MulNonneg(hi - lo, 1.0 - u);
    }
    lo + (hi - lo) * u
  }

  lemma MulNonneg(a: real, b: real)
    requires 0.0 <= a && 0.0 <= b
    ensures 0.0 <= a * b
  {
  }

  /** The partition loop: moves the rows whose value is below `v` to the
      front of the segment by swapping, and returns the boundary. */
  method Partition(s: seq<Row>, start: nat, end: nat, f: nat, v: real)
    returns (s': seq<Row>, pivot: nat)
    requires start <= end <= |s|
    requires Wide(s, start, end, f + 1)
    ensures start <= pivot <= end
    ensures Permutes(s', s, start, end)
    ensures Wide(s', start, end, f + 1)
    ensures forall i :: start <= i < pivot ==> s'[i][f] < v
    ensures forall i :: pivot <= i < end ==> v <= s'[i][f]
  {
    s' := s;
    pivot := start;
    var i := start;
    while i < end
      invariant start <= pivot <= i <= end
      invariant Partitioned(s', s, start, end, f, v, pivot, i)
    {
      if s'[i][f] < v {
        SwapBelow(s', s, start, end, f, v, pivot, i);
        s' := s'[pivot := s'[i]][i := s'[pivot]];
        pivot := pivot + 1;
      } else {
        KeepAbove(s', s, start, end, f, v, pivot, i);
      }
      i := i + 1;
    }
    SegmentPermutation(s', s, start, end);
  }

  /** The partition loop's state after scanning `[start, i)`: only the
      segment has been rearranged, rows in `[start, pivot)` are below `v`,
      and rows in `[pivot, i)` are not. */
  predicate Partitioned(t: seq<Row>, s: seq<Row>, start: nat, end: nat, f: nat, v: real,
                        pivot: nat, i: nat)
    requires start <= pivot <= i <= end <= |s|
  {
    |t| == |s| &&
    (forall k :: 0 <= k < |s| && (k < start || end <= k) ==> t[k] == s[k]) &&
    multiset(t) == multiset(s) &&
    Wide(t, start, end, f + 1) &&
    (forall k :: start <= k < pivot ==> t[k][f] < v) &&
    (forall k :: pivot <= k < i ==> v <= t[k][f])
  }

  /** A row below `v` is swapped to the boundary, which moves up by one. */
  lemma SwapBelow(t: seq<Row>, s: seq<Row>, start: nat, end: nat, f: nat, v: real,
                  pivot: nat, i: nat)
    requires start <= pivot <= i < end <= |s|
    requires Partitioned(t, s, start, end, f, v, pivot, i)
    requires t[i][f] < v
    ensures Partitioned(t[pivot := t[i]][i := t[pivot]], s, start, end, f, v, pivot + 1, i + 1)
  {
    var u := t[pivot := t[i]][i := t[pivot]];
    SwapRows(t, pivot, i);
    assert forall k :: 0 <= k < |s| && (k < start || end <= k) ==> u[k] == t[k];
    forall k | start <= k < end
      ensures f + 1 <= |u[k]|
      ensures k < pivot + 1 ==> u[k][f] < v
      ensures pivot + 1 <= k < i + 1 ==> v <= u[k][f]
    {
      if k == pivot {
        assert u[k] == t[i];
      } else if k == i {
        assert u[k] == t[pivot];
      } else {
        assert u[k] == t[k];
      }
    }
  }

  /** Swapping two rows keeps every row, and moves no other. */
  lemma SwapRows(t: seq<Row>, a: nat, b: nat)
    requires a <= b < |t|
    ensures |t[a := t[b]][b := t[a]]| == |t|
    ensures multiset(t[a := t[b]][b := t[a]]) == multiset(t)
    ensures forall k :: 0 <= k < |t| && k != a && k != b ==> t[a := t[b]][b := t[a]][k] == t[k]
    ensures t[a := t[b]][b := t[a]][a] == t[b] && t[a := t[b]][b := t[a]][b] == t[a]
  {
  }

  /** A row not below `v` stays where it is, past the boundary. */
  lemma KeepAbove(t: seq<Row>, s: seq<Row>, start: nat, end: nat, f: nat, v: real,
                  pivot: nat, i: nat)
    requires start <= pivot <= i < end <= |s|
    requires Partitioned(t, s, start, end, f, v, pivot, i)
    requires v <= t[i][f]
    ensures Partitioned(t, s, start, end, f, v, pivot, i + 1)
  {
  }

  /** A whole-sequence permutation that fixes everything outside `[lo, hi)`
      permutes the segment. */
  lemma SegmentPermutation(b: seq<Row>, a: seq<Row>, lo: nat, hi: nat)
    requires lo <= hi <= |a| == |b|
    requires forall k :: 0 <= k < |a| && (k < lo || hi <= k) ==> b[k] == a[k]
    requires multiset(b) == multiset(a)
    ensures Permutes(b, a, lo, hi)
  {
    assert b[..lo] == a[..lo];
    assert b[hi..] == a[hi..];
    MultisetSplit(b, lo, hi);
    MultisetSplit(a, lo, hi);
    var rest := multiset(a[..lo]) + multiset(a[hi..]);
    assert multiset(b[lo..hi]) == multiset(b) - rest;
    assert multiset(a[lo..hi]) == multiset(a) - rest;
  }

  /** The rows of a sequence are those of its three consecutive pieces. */
  lemma MultisetSplit(a: seq<Row>, lo: nat, hi: nat)
    requires lo <= hi <= |a|
    ensures multiset(a) == multiset(a[..lo]) + multiset(a[lo..hi]) + multiset(a[hi..])
  {
    assert a == a[..lo] + a[lo..hi] + a[hi..];
  }

  /** Permuting the whole of `a` rearranges all of its rows. */
  lemma PermutesWhole(b: seq<Row>, a: seq<Row>)
    requires Permutes(b, a, 0, |a|)
    ensures b[0..|a|] == b && a[0..|a|] == a
    ensures multiset(b) == multiset(a)
  {
    assert b[0..|a|] == b && a[0..|a|] == a;
  }

  /** Permuting `[lo, mid)` and then `[mid, hi)` permutes `[lo, hi)`. */
  lemma PermutesAdjacent(c: seq<Row>, b: seq<Row>, a: seq<Row>, lo: nat, mid: nat, hi: nat)
    requires lo <= mid <= hi <= |a|
    requires Permutes(b, a, lo, mid) && Permutes(c, b, mid, hi)
    ensures Permutes(c, a, lo, hi)
  {
    assert c[lo..mid] == b[lo..mid] by {
      assert c[..mid] == b[..mid];
    }
    assert b[mid..hi] == a[mid..hi] by {
      assert b[mid..] == a[mid..];
    }
    assert c[lo..hi] == c[lo..mid] + c[mid..hi];
    assert b[lo..hi] == b[lo..mid] + b[mid..hi];
    assert a[lo..hi] == a[lo..mid] + a[mid..hi];
    assert c[..lo] == b[..lo] by {
      assert c[..mid][..lo] == b[..mid][..lo];
    }
    assert b[hi..] == a[hi..] by {
      assert b[mid..][hi - mid..] == a[mid..][hi - mid..];
    }
  }

  lemma PermutesTransitive(c: seq<Row>, b: seq<Row>, a: seq<Row>, lo: nat, hi: nat)
    requires lo <= hi <= |a|
    requires Permutes(b, a, lo, hi) && Permutes(c, b, lo, hi)
    ensures Permutes(c, a, lo, hi)
  {
  }

  /** A property of every row survives rearranging the rows. */
  lemma PermutedAll(b: seq<Row>, a: seq<Row>, P: Row -> bool)
    requires multiset(b) == multiset(a)
    requires forall i :: 0 <= i < |a| ==> P(a[i])
    ensures forall i :: 0 <= i < |b| ==> P(b[i])
  {
    forall i | 0 <= i < |b|
      ensures P(b[i])
    {
      assert b[i] in multiset(a);
    }
  }

  /** `create_node(data, n_features, start, end, depth, max_depth)`. The
      draws of `rand()` are read from `draw` starting at `pos`: the feature
      first, then the threshold, then the left subtree's, then the right
      subtree's; `pos'` is the first draw left unread. */
  method Build(s: seq<Row>, nFeatures: nat, start: nat, end: nat, depth: nat, maxDepth: nat,
               draw: Stream, pos: nat)
    returns (t: Tree, s': seq<Row>, pos': nat)
    requires start <= end <= |s|
    requires Wide(s, start, end, nFeatures)
    requires nFeatures == 0 ==> depth >= maxDepth || end - start <= 1
    ensures Permutes(s', s, start, end)
    ensures t.size == end - start
    ensures t.Leaf? <==> depth >= maxDepth || end - start <= 1
    ensures StopsAt(t, depth, maxDepth)
    ensures Isolates(t, s'[start..end])
    ensures Fits(t, nFeatures)
    ensures LeafSum(t) == end - start
    ensures depth + Height(t) <= Max(depth, maxDepth)
    ensures t.Node? ==> t.feat == RandMod(draw(pos), nFeatures)
    ensures t.Node? ==> t.split == Threshold(s[start..end], t.feat, draw(pos + 1))
    ensures pos' == pos + 2 * Internals(t)
    ensures Drawn(t, s'[start..end], nFeatures, draw, pos)
  {
    t, s', pos' := Grow(s, nFeatures, start, end, depth, maxDepth, draw, pos);
    DrawnFits(t, s'[start..end], nFeatures, draw, pos);
    IsolatesLeafSum(t, s'[start..end]);
    StopsAtHeight(t, depth, maxDepth);
  }

  /** The first half of `create_node`'s internal case: draw a feature and a
      threshold between the segment's extremes on it, then partition the
      segment around the threshold. */
  method Split(s: seq<Row>, nFeatures: nat, start: nat, end: nat, draw: Stream, pos: nat)
    returns (f: nat, v: real, s': seq<Row>, pivot: nat)
    requires start < end <= |s| && 0 < nFeatures
    requires Wide(s, start, end, nFeatures)
    ensures f == RandMod(draw(pos), nFeatures)
    ensures v == Threshold(s[start..end], f, draw(pos + 1))
    ensures start <= pivot <= end
    ensures Permutes(s', s, start, end)
    ensures Wide(s', start, pivot, nFeatures) && Wide(s', pivot, end, nFeatures)
    ensures forall i :: start <= i < pivot ==> f < |s'[i]| && s'[i][f] < v
    ensures forall i :: pivot <= i < end ==> f < |s'[i]| && v <= s'[i][f]
  {
    f := RandMod(draw(pos), nFeatures);
    var lo, hi := FeatureRange(s, start, end, f);
    v := SplitValue(lo, hi, draw(pos + 1));
    s', pivot := Partition(s, start, end, f, v);
    PermutedAll(s'[start..end], s[start..end], (x: Row) => nFeatures <= |x|);
    assert Wide(s', start, pivot, nFeatures) && Wide(s', pivot, end, nFeatures) by {
      forall i | start <= i < end ensures nFeatures <= |s'[i]| {
        assert s'[i] == s'[start..end][i - start];
      }
    }
  }

  /** `Build` over a whole sample, as the trainer calls it: `create_node(0,
      n, 0, max_depth)` for the `n` rows of `s`, with the facts restated
      about the whole rearranged sample. */
  method BuildWhole(s: seq<Row>, nFeatures: nat, maxDepth: nat, draw: Stream, pos: nat)
    returns (t: Tree, s': seq<Row>, pos': nat)
    requires Wide(s, 0, |s|, nFeatures)
    requires nFeatures == 0 ==> maxDepth == 0 || |s| <= 1
    ensures multiset(s') == multiset(s)
    ensures Isolates(t, s')
    ensures StopsAt(t, 0, maxDepth)
    ensures Fits(t, nFeatures)
    ensures LeafSum(t) == |s|
    ensures Height(t) <= maxDepth
    ensures pos' == pos + 2 * Internals(t)
    ensures Drawn(t, s', nFeatures, draw, pos)
  {
    t, s', pos' := Build(s, nFeatures, 0, |s|, 0, maxDepth, draw, pos);
    PermutesWhole(s', s);
  }

  /** The recursion behind `Build`, promising the shape, the rows and the
      draws of the tree; `Build` derives the rest. */
  method Grow(s: seq<Row>, nFeatures: nat, start: nat, end: nat, depth: nat, maxDepth: nat,
              draw: Stream, pos: nat)
    returns (t: Tree, s': seq<Row>, pos': nat)
    requires start <= end <= |s|
    requires Wide(s, start, end, nFeatures)
    requires nFeatures == 0 ==> depth >= maxDepth || end - start <= 1
    ensures Permutes(s', s, start, end)
    ensures t.size == end - start
    ensures t.Leaf? <==> depth >= maxDepth || end - start <= 1
    ensures StopsAt(t, depth, maxDepth)
    ensures Isolates(t, s'[start..end])
    ensures t.Node? ==> t.feat == RandMod(draw(pos), nFeatures)
    ensures t.Node? ==> t.split == Threshold(s[start..end], t.feat, draw(pos + 1))
    ensures pos' == pos + 2 * Internals(t)
    ensures Drawn(t, s'[start..end], nFeatures, draw, pos)
    decreases maxDepth - depth, 1
  {
    if depth >= maxDepth || end - start <= 1 {
      return Leaf(end - start), s, pos;
    }
    var f, v, s1, pivot := Split(s, nFeatures, start, end, draw, pos);
    var l, r, s2, s3, mid, pos3 := GrowChildren(s1, nFeatures, start, pivot, end, depth, maxDepth, draw, pos + 2);
    t, s', pos' := Node(f, v, end - start, l, r), s3, pos3;
    BuildNode(s, s1, s2, s3, start, pivot, end, nFeatures, depth, maxDepth, f, v, l, r, draw, pos, mid);
  }

  /** The two recursive calls of `create_node`'s internal case: the left
      subtree over `start..pivot` from draw `pos` on, then the right subtree
      over `pivot..end` from where the left one stopped. */
  method GrowChildren(s: seq<Row>, nFeatures: nat, start: nat, pivot: nat, end: nat,
                      depth: nat, maxDepth: nat, draw: Stream, pos: nat)
    returns (l: Tree, r: Tree, s2: seq<Row>, s3: seq<Row>, mid: nat, pos': nat)
    requires start <= pivot <= end <= |s| && 0 < nFeatures && depth < maxDepth
    requires Wide(s, start, pivot, nFeatures) && Wide(s, pivot, end, nFeatures)
    ensures Permutes(s2, s, start, pivot) && Permutes(s3, s2, pivot, end)
    ensures l.size == pivot - start && r.size == end - pivot
    ensures Isolates(l, s2[start..pivot]) && Isolates(r, s3[pivot..end])
    ensures StopsAt(l, depth + 1, maxDepth) && StopsAt(r, depth + 1, maxDepth)
    ensures Drawn(l, s2[start..pivot], nFeatures, draw, pos)
    ensures mid == pos + 2 * Internals(l) && Drawn(r, s3[pivot..end], nFeatures, draw, mid)
    ensures pos' == mid + 2 * Internals(r)
    decreases maxDepth - depth, 0
  {
    l, s2, mid := Grow(s, nFeatures, start, pivot, depth + 1, maxDepth, draw, pos);
    assert Wide(s2, pivot, end, nFeatures) by {
      assert s2[pivot..] == s[pivot..];
      forall i | pivot <= i < end ensures s2[i] == s[i] {
        assert s2[i] == s2[pivot..][i - pivot];
      }
    }
    r, s3, pos' := Grow(s2, nFeatures, pivot, end, depth + 1, maxDepth, draw, mid);
  }

  /** A tree whose nodes took their features from draws modulo `nFeatures`
      splits on features below `nFeatures` only. */
  lemma {:induction false} DrawnFits(t: Tree, seg: seq<Row>, nFeatures: nat, draw: Stream, pos: nat)
    requires Drawn(t, seg, nFeatures, draw, pos)
    ensures Fits(t, nFeatures)
  {
    match t
    case Leaf(_) =>
    case Node(f, v, _, l, r) =>
      DrawnFits(l, seg[..l.size], nFeatures, draw, pos + 2);
      DrawnFits(r, seg[l.size..], nFeatures, draw, pos + 2 + 2 * Internals(l));
  }

  /** All that `Grow` promises of an internal node, from what the two
      recursive calls promise of its children. */
  lemma BuildNode(s: seq<Row>, s1: seq<Row>, s2: seq<Row>, s3: seq<Row>,
                  start: nat, pivot: nat, end: nat, nFeatures: nat, depth: nat, maxDepth: nat,
                  f: nat, v: real, l: Tree, r: Tree, draw: Stream, pos: nat, mid: nat)
    requires start <= pivot <= end <= |s| && end - start > 1 && depth < maxDepth
    requires nFeatures > 0 && Wide(s, start, end, nFeatures)
    requires f == RandMod(draw(pos), nFeatures)
    requires v == Threshold(s[start..end], f, draw(pos + 1))
    requires Permutes(s1, s, start, end)
    requires forall i :: start <= i < pivot ==> f < |s1[i]| && s1[i][f] < v
    requires forall i :: pivot <= i < end ==> f < |s1[i]| && v <= s1[i][f]
    requires Permutes(s2, s1, start, pivot) && Permutes(s3, s2, pivot, end)
    requires l.size == pivot - start && r.size == end - pivot
    requires Isolates(l, s2[start..pivot]) && Isolates(r, s3[pivot..end])
    requires StopsAt(l, depth + 1, maxDepth) && StopsAt(r, depth + 1, maxDepth)
    requires Drawn(l, s2[start..pivot], nFeatures, draw, pos + 2)
    requires mid == pos + 2 + 2 * Internals(l) && Drawn(r, s3[pivot..end], nFeatures, draw, mid)
    ensures Permutes(s3, s, start, end)
    ensures StopsAt(Node(f, v, end - start, l, r), depth, maxDepth)
    ensures Isolates(Node(f, v, end - start, l, r), s3[start..end])
    ensures Drawn(Node(f, v, end - start, l, r), s3[start..end], nFeatures, draw, pos)
  {
    var lo, hi := ThresholdWithin(s, start, end, f, draw(pos + 1));
    assert Wide(s1, start, end, f + 1);
    BuildNodeIsolates(s, s1, s2, s3, start, pivot, end, f, v, lo, hi, l, r);
    BuildNodeDrawn(s, s1, s2, s3, start, pivot, end, nFeatures, f, v, l, r, draw, pos, mid);
  }

  /** The drawn threshold lies between the segment's extremes on the
      feature, which rows of the segment attain. */
  lemma ThresholdWithin(s: seq<Row>, start: nat, end: nat, f: nat, raw: RandValue)
    returns (lo: real, hi: real)
    requires start < end <= |s|
    requires forall i :: start <= i < end ==> f < |s[i]|
    ensures forall i :: 0 <= i < end - start ==> f < |s[start..end][i]|
    ensures lo <= Threshold(s[start..end], f, raw) <= hi
    ensures exists i :: start <= i < end && s[i][f] == lo
    ensures exists i :: start <= i < end && s[i][f] == hi
  {
    var seg := s[start..end];
    assert forall i :: 0 <= i < |seg| ==> f < |seg[i]| by {
      forall i | 0 <= i < |seg| ensures f < |seg[i]| {
        assert seg[i] == s[start + i];
      }
    }
    SegExtremes(seg, f);
    lo, hi := SegMin(seg, f), SegMax(seg, f);
    var a :| 0 <= a < |seg| && seg[a][f] == lo;
    var b :| 0 <= b < |seg| && seg[b][f] == hi;
    assert seg[a] == s[start + a] && seg[b] == s[start + b];
  }

  /** Every node of `t` took its feature and threshold from the draws the
      builder reads, over the rows `seg` it isolates: the root from `pos` and
      `pos + 1`, its left subtree from `pos + 2` on, and its right subtree
      from where the left one stopped. */
  predicate Drawn(t: Tree, seg: seq<Row>, nFeatures: nat, draw: Stream, pos: nat)
  {
    match t
    case Leaf(_) => true
    case Node(f, v, _, l, r) =>
      nFeatures > 0 && 0 < |seg| && l.size <= |seg| &&
      (forall i :: 0 <= i < |seg| ==> f < |seg[i]|) &&
      f == RandMod(draw(pos), nFeatures) &&
      v == Threshold(seg, f, draw(pos + 1)) &&
      Drawn(l, seg[..l.size], nFeatures, draw, pos + 2) &&
      Drawn(r, seg[l.size..], nFeatures, draw, pos + 2 + 2 * Internals(l))
  }

  /** The minimum and maximum of a feature do not depend on the order of
      the rows. */
  lemma SegExtremesPermuted(a: seq<Row>, b: seq<Row>, f: nat)
    requires multiset(b) == multiset(a) && 0 < |a|
    requires forall i :: 0 <= i < |a| ==> f < |a[i]|
    ensures 0 < |b| && forall i :: 0 <= i < |b| ==> f < |b[i]|
    ensures SegMin(b, f) == SegMin(a, f) && SegMax(b, f) == SegMax(a, f)
  {
    assert |b| == |multiset(b)| == |multiset(a)| == |a|;
    PermutedAll(b, a, (x: Row) => f < |x|);
    RowsShared(a, b, f);
    RowsShared(b, a, f);
  }

  /** Each extreme of `a` is the value of a row of `b`, and so is bounded by
      the extremes of `b`. */
  lemma RowsShared(a: seq<Row>, b: seq<Row>, f: nat)
    requires multiset(b) == multiset(a) && 0 < |a| && 0 < |b|
    requires forall i :: 0 <= i < |a| ==> f < |a[i]|
    requires forall i :: 0 <= i < |b| ==> f < |b[i]|
    ensures SegMin(b, f) <= SegMin(a, f) && SegMax(a, f) <= SegMax(b, f)
  {
    SegExtremes(a, f);
    SegExtremes(b, f);
    var i :| 0 <= i < |a| && a[i][f] == SegMin(a, f);
    var k :| 0 <= k < |a| && a[k][f] == SegMax(a, f);
    assert a[i] in multiset(b) && a[k] in multiset(b);
    var j :| 0 <= j < |b| && b[j] == a[i];
    var m :| 0 <= m < |b| && b[m] == a[k];
  }

  /** The step of `Build` that assembles an internal node, for its draws:
      the root's feature and threshold were computed over the rows before the
      children rearranged them, which has the same minimum and maximum. */
  lemma BuildNodeDrawn(s: seq<Row>, s1: seq<Row>, s2: seq<Row>, s3: seq<Row>,
                       start: nat, pivot: nat, end: nat, nFeatures: nat, f: nat, v: real,
                       l: Tree, r: Tree, draw: Stream, pos: nat, mid: nat)
    requires start <= pivot <= end <= |s| && start < end
    requires nFeatures > 0 && Wide(s, start, end, nFeatures)
    requires f == RandMod(draw(pos), nFeatures)
    requires v == Threshold(s[start..end], f, draw(pos + 1))
    requires Permutes(s1, s, start, end) && Permutes(s3, s, start, end)
    requires Permutes(s2, s1, start, pivot) && Permutes(s3, s2, pivot, end)
    requires l.size == pivot - start
    requires Drawn(l, s2[start..pivot], nFeatures, draw, pos + 2)
    requires mid == pos + 2 + 2 * Internals(l) && Drawn(r, s3[pivot..end], nFeatures, draw, mid)
    ensures Drawn(Node(f, v, end - start, l, r), s3[start..end], nFeatures, draw, pos)
  {
    var seg := s3[start..end];
    FinalHalves(s1, s2, s3, start, pivot, end);
    assert seg[..l.size] == s2[start..pivot];
    assert seg[l.size..] == s3[pivot..end];
    assert forall i :: 0 <= i < end - start ==> f < |s[start..end][i]| by {
      forall i | 0 <= i < end - start ensures f < |s[start..end][i]| {
        assert s[start..end][i] == s[start + i];
      }
    }
    SegExtremesPermuted(s[start..end], seg, f);
    DrawnNode(f, v, end - start, l, r, seg, nFeatures, draw, pos, mid);
  }

  /** Building up `Drawn` one node at a time. */
  lemma DrawnNode(f: nat, v: real, n: nat, l: Tree, r: Tree, seg: seq<Row>, nFeatures: nat,
                  draw: Stream, pos: nat, mid: nat)
    requires nFeatures > 0 && 0 < |seg| && l.size <= |seg|
    requires forall i :: 0 <= i < |seg| ==> f < |seg[i]|
    requires f == RandMod(draw(pos), nFeatures)
    requires v == Threshold(seg, f, draw(pos + 1))
    requires Drawn(l, seg[..l.size], nFeatures, draw, pos + 2)
    requires mid == pos + 2 + 2 * Internals(l) && Drawn(r, seg[l.size..], nFeatures, draw, mid)
    ensures Drawn(Node(f, v, n, l, r), seg, nFeatures, draw, pos)
  {
  }

  /** The step of `Build` that assembles an internal node: the children
      isolate the two halves of the final arrangement, whose rows stay on the
      side of the split the partition put them. */
  lemma BuildNodeIsolates(s: seq<Row>, s1: seq<Row>, s2: seq<Row>, s3: seq<Row>,
                          start: nat, pivot: nat, end: nat, f: nat, v: real,
                          lo: real, hi: real, l: Tree, r: Tree)
    requires start <= pivot <= end <= |s|
    requires Wide(s, start, end, f + 1)
    requires lo <= v <= hi
    requires exists i :: start <= i < end && s[i][f] == lo
    requires exists i :: start <= i < end && s[i][f] == hi
    requires Permutes(s1, s, start, end)
    requires Wide(s1, start, end, f + 1)
    requires forall i :: start <= i < pivot ==> s1[i][f] < v
    requires forall i :: pivot <= i < end ==> v <= s1[i][f]
    requires Permutes(s2, s1, start, pivot)
    requires Permutes(s3, s2, pivot, end)
    requires l.size == pivot - start && r.size == end - pivot
    requires Isolates(l, s2[start..pivot]) && Isolates(r, s3[pivot..end])
    ensures Permutes(s3, s, start, end)
    ensures Isolates(Node(f, v, end - start, l, r), s3[start..end])
  {
    PermutesAdjacent(s3, s2, s1, start, pivot, end);
    PermutesTransitive(s3, s1, s, start, end);
    FinalHalves(s1, s2, s3, start, pivot, end);
    var seg := s3[start..end];
    var p := pivot - start;
    SideKept(seg[..p], s1, start, pivot, f, v, true);
    SideKept(seg[p..], s1, pivot, end, f, v, false);
    forall i | 0 <= i < |seg|
      ensures f < |seg[i]|
      ensures i < p ==> seg[i][f] < v
      ensures p <= i ==> v <= seg[i][f]
    {
      if i < p {
        assert seg[i] == seg[..p][i];
      } else {
        assert seg[i] == seg[p..][i - p];
      }
    }
    HullKept(seg, s, start, end, f, v, lo, hi);
  }

  /** The final arrangement of a node's segment is the left child's
      arrangement of the left half followed by the right child's of the
      right half, and each half holds the rows the partition gave it. */
  lemma FinalHalves(s1: seq<Row>, s2: seq<Row>, s3: seq<Row>, start: nat, pivot: nat, end: nat)
    requires start <= pivot <= end <= |s1|
    requires Permutes(s2, s1, start, pivot)
    requires Permutes(s3, s2, pivot, end)
    ensures s3[start..end][..pivot - start] == s2[start..pivot]
    ensures s3[start..end][pivot - start..] == s3[pivot..end]
    ensures multiset(s3[start..end][..pivot - start]) == multiset(s1[start..pivot])
    ensures multiset(s3[start..end][pivot - start..]) == multiset(s1[pivot..end])
  {
    assert s3[start..end][..pivot - start] == s2[start..pivot] by {
      assert s3[..pivot] == s2[..pivot];
      assert s3[start..end][..pivot - start] == s3[..pivot][start..];
      assert s2[start..pivot] == s2[..pivot][start..];
    }
    assert s2[pivot..end] == s1[pivot..end] by {
      assert s2[pivot..] == s1[pivot..];
      assert s2[pivot..end] == s2[pivot..][..end - pivot];
      assert s1[pivot..end] == s1[pivot..][..end - pivot];
    }
  }

  /** Rows that all lay on one side of the split in `a[lo..hi]` still do
      after being rearranged into `b`. */
  lemma SideKept(b: seq<Row>, a: seq<Row>, lo: nat, hi: nat, f: nat, v: real, below: bool)
    requires lo <= hi <= |a|
    requires multiset(b) == multiset(a[lo..hi])
    requires Wide(a, lo, hi, f + 1)
    requires below ==> forall i :: lo <= i < hi ==> a[i][f] < v
    requires !below ==> forall i :: lo <= i < hi ==> v <= a[i][f]
    ensures forall i :: 0 <= i < |b| ==> f < |b[i]|
    ensures below ==> forall i :: 0 <= i < |b| ==> b[i][f] < v
    ensures !below ==> forall i :: 0 <= i < |b| ==> v <= b[i][f]
  {
    forall i | 0 <= i < |b|
      ensures f < |b[i]| && (if below then b[i][f] < v else v <= b[i][f])
    {
      assert b[i] in multiset(a[lo..hi]);
      var k :| 0 <= k < hi - lo && a[lo..hi][k] == b[i];
      assert a[lo + k] == b[i];
    }
  }

  /** The rows holding the feature's minimum and maximum are still in the
      rearranged segment, so the split stays within its range. */
  lemma HullKept(seg: seq<Row>, s: seq<Row>, start: nat, end: nat, f: nat, v: real, lo: real, hi: real)
    requires start <= end <= |s|
    requires multiset(seg) == multiset(s[start..end])
    requires Wide(s, start, end, f + 1)
    requires forall i :: 0 <= i < |seg| ==> f < |seg[i]|
    requires lo <= v <= hi
    requires exists i :: start <= i < end && s[i][f] == lo
    requires exists i :: start <= i < end && s[i][f] == hi
    ensures InHull(seg, f, v)
  {
    var iLo :| start <= iLo < end && s[iLo][f] == lo;
    var iHi :| start <= iHi < end && s[iHi][f] == hi;
    assert s[start..end][iLo - start] == s[iLo];
    assert s[start..end][iHi - start] == s[iHi];
    assert s[iLo] in multiset(seg) && s[iHi] in multiset(seg);
    var j :| 0 <= j < |seg| && seg[j] == s[iLo];
    var k :| 0 <= k < |seg| && seg[k] == s[iHi];
    assert seg[j][f] <= v <= seg[k][f];
  }
}

=== FILE: depth.dfy ===
/** The depth limit every tree is built under.

    `iforest_init` sets `max_depth = (int)ceil(log2(max(num_samples, 2))) + 2`
    in floating point. The model uses the exact integer ceiling of the binary
    logarithm instead, which is what the double computation yields for every
    sample size representable in an `int`. */
module Depth {

  function Pow2(k: nat): (p: nat)
    ensures p >= 1
  {
    if k == 0 then 1 else 2 * Pow2(k - 1)
  }

  /** The least `k` with `n <= 2^k`, i.e. `ceil(log2(n))` for `n >= 1`. */
  function CeilLog2(n: nat): (k: nat)
    requires n >= 1
    ensures n <= Pow2(k)
    ensures k == 0 || Pow2(k - 1) < n
    decreases n
  {
    if n <= 1 then 0 else 1 + CeilLog2((n + 1) / 2)
  }

  /** The tree depth limit for a configured per-tree sample size. */
  function MaxDepth(numSamples: int): (d: nat)
    ensures d >= 3
    ensures numSamples <= Pow2(d - 2)
    ensures Pow2(d - 3) < (if numSamples > 2 then numSamples else 2)
  {
    CeilLog2(if numSamples > 2 then numSamples else 2) + 2
  }

  /** `CeilLog2` is the only exponent with both defining properties. */
  lemma {:induction false} CeilLog2Unique(n: nat, k: nat)
    requires n >= 1
    requires n <= Pow2(k) && (k == 0 || Pow2(k - 1) < n)
    ensures k == CeilLog2(n)
  {
    var c := CeilLog2(n);
    if k < c {
      Pow2Monotone(k, c - 1);
      assert false;
    } else if c < k {
      Pow2Monotone(c, k - 1);
      assert false;
    }
  }

  lemma {:induction false} Pow2Monotone(a: nat, b: nat)
    requires a <= b
    ensures Pow2(a) <= Pow2(b)
    decreases b - a
  {
    if a < b {
      Pow2Monotone(a, b - 1);
    }
  }
}

=== FILE: forest.dfy ===
/** The forest of the current implementation: `iforest_train`'s division of
    the trees among workers, the per-tree sample-then-build step each worker
    runs, and the path averaging of `iforest_score`. Workers run one after
    the other here; each owns a `rand()` stream of its own. */
module Forest {
  import opened Rand
  import opened Depth
  import opened ITree
  import opened Builder
  import opened Sampler

  datatype Option<T> = None | Some(value: T)

  datatype Error =
    /** `create_node` would be asked for more rows than the sample holds. */
    | SampleOverrun(requested: nat, available: nat)
    /** An integer division by zero. */
    | DivisionByZero

  datatype Result<T> = Ok(value: T) | Err(error: Error)

  /** The fields of `struct isolation_forest` that training reads. */
  datatype Config = Config(numTrees: nat, numSamples: nat, numThreads: int)

  /** Trees `[lo, hi)` of one worker. */
  datatype Range = Range(lo: nat, hi: nat)

  /** The worker count as `iforest_train` computes it:
      `num_threads > 0 ? min(num_threads, num_trees) : 1`. */
  function WorkerCount(numThreads: int, numTrees: nat): (t: nat)
    ensures numThreads <= 0 ==> t == 1
    ensures numThreads > 0 ==> t <= numThreads && t <= numTrees
    ensures numThreads > 0 ==> (t == numThreads || t == numTrees)
    ensures t == 0 <==> numThreads > 0 && numTrees == 0
  {
    if numThreads > 0 then (if numThreads < numTrees then numThreads else numTrees) else 1
  }

  /** The worker count clamped to at least one: identical to `WorkerCount`
      except that a forest with no trees still gets one (idle) worker instead
      of a zero divisor. */
  function ClampedWorkerCount(numThreads: int, numTrees: nat): (t: nat)
    ensures 1 <= t
    ensures numTrees >= 1 ==> t <= numTrees
    ensures numThreads > 0 ==> t <= numThreads
    ensures t == WorkerCount(numThreads, numTrees) || numTrees == 0
  {
    var t := WorkerCount(numThreads, numTrees);
    if t == 0 then 1 else t
  }

  /** `rs` runs from 0 to `n` without gaps or overlaps between neighbours. */
  predicate Contiguous(rs: seq<Range>, n: nat)
  {
    |rs| >= 1 && rs[0].lo == 0 && rs[|rs| - 1].hi == n &&
    (forall i :: 0 <= i < |rs| ==> rs[i].lo <= rs[i].hi) &&
    (forall i :: 0 <= i < |rs| - 1 ==> rs[i].hi == rs[i + 1].lo)
  }

  /** The sizes `iforest_train` gives the ranges: `n / |rs|` trees each,
      and the remainder `n % |rs|` on top for the last one. */
  predicate Balanced(rs: seq<Range>, n: nat)
  {
    |rs| >= 1 &&
    (forall i :: 0 <= i < |rs| - 1 ==> rs[i].hi - rs[i].lo == n / |rs|) &&
    rs[|rs| - 1].hi - rs[|rs| - 1].lo == n / |rs| + n % |rs|
  }

  lemma MulMonotone(a: nat, b: nat, q: nat)
    requires a <= b
    ensures a * q <= b * q
  {
  }

  /** Range `i` of `t`: `[i * tpt, (i + 1) * tpt)` for `tpt = n / t`, the
      last one stretched to end at `n`. */
  function RangeOf(n: nat, t: nat, i: nat): Range
    requires i < t
  {
    var q := n / t;
    Range(i * q, if i == t - 1 then n else (i + 1) * q)
  }

  lemma RangeOfBounds(n: nat, t: nat, i: nat)
    requires i < t
    ensures RangeOf(n, t, i).lo <= RangeOf(n, t, i).hi
    ensures i < t - 1 ==> RangeOf(n, t, i).hi == RangeOf(n, t, i + 1).lo
    ensures t <= n ==> RangeOf(n, t, i).lo < RangeOf(n, t, i).hi
    ensures n < t && i < t - 1 ==> RangeOf(n, t, i).lo == RangeOf(n, t, i).hi
    ensures RangeOf(n, t, i).hi <= n
  {
    var q := n / t;
    QuotientFacts(n, t);
    MulMonotone(i + 1, t, q);
    MulSucc(i, q);
  }

  /** Range `i` holds `n / t` trees, and the last one the remainder too. */
  lemma RangeOfSize(n: nat, t: nat, i: nat)
    requires i < t
    ensures i < t - 1 ==> RangeOf(n, t, i).hi - RangeOf(n, t, i).lo == n / t
    ensures i == t - 1 ==> RangeOf(n, t, i).hi - RangeOf(n, t, i).lo == n / t + n % t
  {
    var q := n / t;
    MulSucc(i, q);
    assert n == t * q + n % t;
  }

  lemma QuotientFacts(n: nat, t: nat)
    requires 0 < t
    ensures t * (n / t) <= n
    ensures n < t ==> n / t == 0
    ensures t <= n ==> 1 <= n / t
  {
  }

  lemma MulSucc(i: nat, q: nat)
    ensures (i + 1) * q == i * q + q
  {
  }

  /** The ranges `iforest_train` assigns to `t` workers. */
  function SplitRanges(n: nat, t: nat): (rs: seq<Range>)
    requires t >= 1
    ensures |rs| == t
    ensures Contiguous(rs, n)
    ensures t <= n ==> forall i :: 0 <= i < t ==> rs[i].lo < rs[i].hi
    ensures n < t ==> forall i :: 0 <= i < t - 1 ==> rs[i].lo == rs[i].hi
    ensures forall i :: 0 <= i < t ==> rs[i].hi <= n
    ensures Balanced(rs, n)
  {
    var rs := seq(t, (i: nat) requires i < t => RangeOf(n, t, i));
    forall i | 0 <= i < t
      ensures rs[i].lo <= rs[i].hi
      ensures i < t - 1 ==> rs[i].hi == rs[i + 1].lo
      ensures t <= n ==> rs[i].lo < rs[i].hi
      ensures n < t && i < t - 1 ==> rs[i].lo == rs[i].hi
      ensures rs[i].hi <= n
      ensures i < t - 1 ==> rs[i].hi - rs[i].lo == n / t
      ensures i == t - 1 ==> rs[i].hi - rs[i].lo == n / t + n % t
    {
      RangeOfBounds(n, t, i);
      RangeOfSize(n, t, i);
    }
    rs
  }

  /** Neighbouring ranges being adjacent, any earlier range ends before any
      later one starts. */
  lemma {:induction false} ContiguousOrdered(rs: seq<Range>, n: nat, i: nat, j: nat)
    requires Contiguous(rs, n) && i < j < |rs|
    ensures rs[i].hi <= rs[j].lo
    decreases j - i
  {
    if i + 1 < j {
      ContiguousOrdered(rs, n, i + 1, j);
    }
  }

  /** Some range at index `m` or later holds `k`. */
  lemma {:induction false} ContiguousReaches(rs: seq<Range>, n: nat, k: nat, m: nat)
    requires Contiguous(rs, n) && k < n
    requires m < |rs| && rs[m].lo <= k
    ensures exists w :: m <= w < |rs| && rs[w].lo <= k < rs[w].hi
    decreases |rs| - m
  {
    if rs[m].hi <= k {
      ContiguousReaches(rs, n, k, m + 1);
    }
  }

  /** Contiguous ranges partition `[0, n)`: every index belongs to exactly
      one of them, so no two workers write the same tree slot and none is
      left unwritten. */
  lemma ContiguousPartition(rs: seq<Range>, n: nat, k: nat)
    requires Contiguous(rs, n) && k < n
    ensures exists w :: 0 <= w < |rs| && rs[w].lo <= k < rs[w].hi
    ensures forall w, w' ::
      0 <= w < |rs| && 0 <= w' < |rs| && rs[w].lo <= k < rs[w].hi && rs[w'].lo <= k < rs[w'].hi
      ==> w == w'
  {
    ContiguousReaches(rs, n, k, 0);
    forall w, w' | 0 <= w < |rs| && 0 <= w' < |rs| && rs[w].lo <= k < rs[w].hi && rs[w'].lo <= k < rs[w'].hi
      ensures w == w'
    {
      if w < w' {
        ContiguousOrdered(rs, n, w, w');
      } else if w' < w {
        ContiguousOrdered(rs, n, w', w);
      }
    }
  }

  /** The ranges `iforest_train` hands to its workers, as written: with no
      trees and a positive thread count there are no workers and computing
      `num_trees / num_threads` divides by zero. */
  function WorkerRanges(numThreads: int, numTrees: nat): (r: Result<seq<Range>>)
    ensures r.Err? <==> numThreads > 0 && numTrees == 0
    ensures r.Ok? ==> |r.value| == WorkerCount(numThreads, numTrees)
    ensures r.Ok? ==> Contiguous(r.value, numTrees) && Balanced(r.value, numTrees)
    ensures r.Ok? && numTrees >= 1 ==> forall i :: 0 <= i < |r.value| ==> r.value[i].lo < r.value[i].hi
  {
    var t := WorkerCount(numThreads, numTrees);
    if t == 0 then Err(DivisionByZero) else Ok(SplitRanges(numTrees, t))
  }

  /** The rows the indices `idx` refer to. */
  function Gather(data: seq<Row>, idx: seq<nat>): seq<Row>
    requires forall k :: 0 <= k < |idx| ==> idx[k] < |data|
  {
    seq(|idx|, (k: nat) requires k < |idx| => data[idx[k]])
  }

  /** What one iteration of `build_trees_thread` promises of its tree: the
      sampled indices `picked` are `min(num_samples, rows)` distinct rows of
      `data`; `sample` holds those rows, rearranged by the build; and the tree
      isolates `sample`, splits on features below `nFeatures` and stops by the
      depth rules of `create_node`. */
  predicate Grown(t: Tree, picked: seq<nat>, sample: seq<Row>, data: seq<Row>, nFeatures: nat,
                  numSamples: nat, maxDepth: nat)
  {
    |picked| == Min(numSamples, |data|) && Distinct(picked) &&
    (forall k :: 0 <= k < |picked| ==> picked[k] < |data|) &&
    multiset(sample) == multiset(Gather(data, picked)) &&
    Isolates(t, sample) && StopsAt(t, 0, maxDepth) && Fits(t, nFeatures) &&
    LeafSum(t) == |picked| && Height(t) <= maxDepth
  }

  /** The draws of one tree from the stream `draw`, starting at `pos`: the
      sampler reads one draw per sampled row, and the build of the tree over
      `sample` reads its draws right after. */
  predicate DrawnAt(t: Tree, picked: seq<nat>, sample: seq<Row>, data: seq<Row>, nFeatures: nat,
                    numSamples: nat, draw: Stream, pos: nat)
  {
    picked == Sample(|data|, numSamples, draw, pos) &&
    Drawn(t, sample, nFeatures, draw, pos + |picked|)
  }

  /** The number of draws one tree takes: one per sampled row, two per
      internal node. */
  function TreeDraws(t: Tree, picked: seq<nat>): (n: nat)
    ensures n >= |picked|
    ensures t.Node? ==> n >= |picked| + 2
  {
    |picked| + 2 * Internals(t)
  }

  lemma DrawnAtIntro(t: Tree, picked: seq<nat>, sample: seq<Row>, data: seq<Row>, nFeatures: nat,
                     numSamples: nat, draw: Stream, pos: nat, buildPos: nat)
    requires picked == Sample(|data|, numSamples, draw, pos)
    requires buildPos == pos + |picked|
    requires Drawn(t, sample, nFeatures, draw, buildPos)
    ensures DrawnAt(t, picked, sample, data, nFeatures, numSamples, draw, pos)
  {
  }

  /** One iteration of `build_trees_thread`, as written: the sample is
      clamped to the dataset, but `create_node` is then asked to cover the
      requested, unclamped count of rows. When more rows are requested than
      the dataset has, `create_node` still returns a leaf of that size
      without reading any row if the depth limit is 0 or at most one row
      is requested; otherwise it reads past the end of the sample, which
      the model reports as an error instead of building. When the counts
      agree the tree is the one `TrainTree` grows. */
  method TrainTreeAsWritten(data: seq<Row>, nFeatures: nat, numSamples: nat, maxDepth: nat,
                            draw: Stream, pos: nat)
    returns (r: Result<Tree>, picked: seq<nat>, sample: seq<Row>, pos': nat)
    requires Wide(data, 0, |data|, nFeatures)
    requires nFeatures == 0 ==> maxDepth == 0 || numSamples <= 1
    ensures r.Err? <==> numSamples > |data| && maxDepth > 0 && numSamples >= 2
    ensures picked == Sample(|data|, numSamples, draw, pos)
    ensures |picked| == Min(numSamples, |data|) && Distinct(picked)
    ensures forall k :: 0 <= k < |picked| ==> picked[k] < |data|
    ensures r.Err? ==> sample == Gather(data, picked) && pos' == pos + |picked|
    ensures r.Ok? ==> LeafSum(r.value) == numSamples && Height(r.value) <= maxDepth
    ensures r.Ok? ==> Fits(r.value, nFeatures) && StopsAt(r.value, 0, maxDepth)
    ensures r.Ok? && numSamples <= |data| ==>
      Grown(r.value, picked, sample, data, nFeatures, numSamples, maxDepth)
    ensures r.Ok? && numSamples > |data| ==>
      r.value == Leaf(numSamples) && sample == Gather(data, picked)
    ensures r.Ok? ==> DrawnAt(r.value, picked, sample, data, nFeatures, numSamples, draw, pos)
    ensures r.Ok? ==> pos' == pos + TreeDraws(r.value, picked)
  {
    var size, p1;
    size, picked, p1 := SampleWithoutReplacement(|data|, numSamples, draw, pos);
    var gathered := Gather(data, picked);
    if numSamples > |gathered| {
      if maxDepth > 0 && numSamples >= 2 {
        return Err(SampleOverrun(numSamples, |gathered|)), picked, gathered, p1;
      }
      return Ok(Leaf(numSamples)), picked, gathered, p1;
    }
    var t, p2;
    t, sample, p2 := BuildWhole(gathered, nFeatures, maxDepth, draw, p1);
    DrawnAtIntro(t, picked, sample, data, nFeatures, numSamples, draw, pos, p1);
    return Ok(t), picked, sample, p2;
  }

  /** One iteration of `build_trees_thread` with the clamped sample size as
      the end of the segment: a tree over `min(num_samples, rows)` distinct
      rows of the dataset. `picked` are the sampled row indices, `sample` the
      rows in the order the build left them; the build's draws start at
      `buildPos`, right after the sampler's. */
  method TrainTree(data: seq<Row>, nFeatures: nat, numSamples: nat, maxDepth: nat,
                   draw: Stream, pos: nat)
    returns (t: Tree, picked: seq<nat>, sample: seq<Row>, buildPos: nat, pos': nat)
    requires Wide(data, 0, |data|, nFeatures)
    requires nFeatures == 0 ==> maxDepth == 0 || Min(numSamples, |data|) <= 1
    ensures |picked| == Min(numSamples, |data|)
    ensures picked == Sample(|data|, numSamples, draw, pos)
    ensures Distinct(picked)
    ensures forall k :: 0 <= k < |picked| ==> picked[k] < |data|
    ensures multiset(sample) == multiset(Gather(data, picked))
    ensures Isolates(t, sample)
    ensures StopsAt(t, 0, maxDepth)
    ensures LeafSum(t) == Min(numSamples, |data|)
    ensures Height(t) <= maxDepth
    ensures Fits(t, nFeatures)
    ensures buildPos == pos + |picked| && Drawn(t, sample, nFeatures, draw, buildPos)
    ensures pos' == buildPos + 2 * Internals(t)
    ensures pos <= pos'
  {
    var size;
    size, picked, buildPos := SampleWithoutReplacement(|data|, numSamples, draw, pos);
    var gathered := Gather(data, picked);
    t, sample, pos' := BuildWhole(gathered, nFeatures, maxDepth, draw, buildPos);
  }

  /** The ranges of trees `iforest_train` hands to its workers, with the
      worker count clamped to at least one. */
  function TrainRanges(cfg: Config): (rs: seq<Range>)
    ensures |rs| == ClampedWorkerCount(cfg.numThreads, cfg.numTrees)
    ensures Contiguous(rs, cfg.numTrees) && Balanced(rs, cfg.numTrees)
    ensures forall w :: 0 <= w < |rs| ==> rs[w].hi <= cfg.numTrees
  {
    SplitRanges(cfg.numTrees, ClampedWorkerCount(cfg.numThreads, cfg.numTrees))
  }

  /** `iforest_train` with the worker count clamped to at least one and each
      tree built from the clamped sample: worker `w` builds, in order, the
      trees of its range, drawing from its own stream `streams(w)`. Tree `k`
      comes with its sampled indices `picks[k]`, its rearranged rows
      `samples[k]`, and the position `starts[k]` in its worker's stream where
      its draws begin: 0 for the first tree of a range, and for the others
      where the previous tree's draws stopped. */
  method TrainForest(data: seq<Row>, nFeatures: nat, cfg: Config, streams: nat -> Stream)
    returns (trees: seq<Tree>, picks: seq<seq<nat>>, samples: seq<seq<Row>>, starts: seq<nat>)
    requires Wide(data, 0, |data|, nFeatures)
    requires nFeatures == 0 ==> Min(cfg.numSamples, |data|) <= 1
    ensures |trees| == cfg.numTrees
    ensures |picks| == |samples| == |starts| == cfg.numTrees
    ensures forall k :: 0 <= k < |trees| ==>
      LeafSum(trees[k]) == Min(cfg.numSamples, |data|) &&
      Height(trees[k]) <= MaxDepth(cfg.numSamples) &&
      Fits(trees[k], nFeatures)
    ensures forall k :: 0 <= k < |trees| ==>
      Grown(trees[k], picks[k], samples[k], data, nFeatures, cfg.numSamples, MaxDepth(cfg.numSamples))
    ensures forall w, k :: 0 <= w < |TrainRanges(cfg)| && TrainRanges(cfg)[w].lo <= k < TrainRanges(cfg)[w].hi ==>
      DrawnAt(trees[k], picks[k], samples[k], data, nFeatures, cfg.numSamples, streams(w), starts[k])
    ensures forall w :: 0 <= w < |TrainRanges(cfg)| && TrainRanges(cfg)[w].lo < TrainRanges(cfg)[w].hi ==>
      starts[TrainRanges(cfg)[w].lo] == 0
    ensures forall w, k :: 0 <= w < |TrainRanges(cfg)| && TrainRanges(cfg)[w].lo <= k && k + 1 < TrainRanges(cfg)[w].hi ==>
      starts[k + 1] == starts[k] + TreeDraws(trees[k], picks[k])
  {
    var maxDepth := MaxDepth(cfg.numSamples);
    var rs := TrainRanges(cfg);
    trees, picks, samples, starts := [], [], [], [];
    var w := 0;
    while w < |rs|
      invariant w <= |rs|
      invariant |trees| == if w < |rs| then rs[w].lo else cfg.numTrees
      invariant Assigned(trees, picks, samples, starts, rs, w, data, nFeatures, cfg.numSamples, maxDepth, streams)
    {
      var batch, bPicks, bSamples, bStarts :=
        TrainRange(data, nFeatures, cfg.numSamples, maxDepth, rs[w].hi - rs[w].lo, streams(w));
      AssignStep(trees, picks, samples, starts, batch, bPicks, bSamples, bStarts,
                 data, nFeatures, cfg.numSamples, maxDepth, rs, cfg.numTrees, w, streams);
      trees, picks, samples, starts := trees + batch, picks + bPicks, samples + bSamples, starts + bStarts;
      w := w + 1;
    }
    forall k | 0 <= k < |trees|
      ensures LeafSum(trees[k]) == Min(cfg.numSamples, |data|) &&
        Height(trees[k]) <= MaxDepth(cfg.numSamples) && Fits(trees[k], nFeatures)
    {
      assert Grown(trees[k], picks[k], samples[k], data, nFeatures, cfg.numSamples, maxDepth);
    }
  }

  /** The loop of one worker of `build_trees_thread`: `count` trees, one
      after another, each reading its draws where the previous one stopped.
      The first starts at position 0 of the worker's stream. */
  method TrainRange(data: seq<Row>, nFeatures: nat, numSamples: nat, maxDepth: nat,
                    count: nat, draw: Stream)
    returns (trees: seq<Tree>, picks: seq<seq<nat>>, samples: seq<seq<Row>>, starts: seq<nat>)
    requires Wide(data, 0, |data|, nFeatures)
    requires nFeatures == 0 ==> maxDepth == 0 || Min(numSamples, |data|) <= 1
    ensures |trees| == count
    ensures |picks| == |samples| == |starts| == count
    ensures forall k :: 0 <= k < |trees| ==>
      LeafSum(trees[k]) == Min(numSamples, |data|) &&
      Height(trees[k]) <= maxDepth && Fits(trees[k], nFeatures)
    ensures forall k :: 0 <= k < count ==>
      Grown(trees[k], picks[k], samples[k], data, nFeatures, numSamples, maxDepth)
    ensures forall k :: 0 <= k < count ==>
      DrawnAt(trees[k], picks[k], samples[k], data, nFeatures, numSamples, draw, starts[k])
    ensures count > 0 ==> starts[0] == 0
    ensures forall k :: 0 <= k < count - 1 ==> starts[k + 1] == starts[k] + TreeDraws(trees[k], picks[k])
  {
    trees, picks, samples, starts := [], [], [], [];
    var pos := 0;
    while |trees| < count
      invariant |trees| <= count
      invariant |picks| == |samples| == |trees|
      invariant forall k :: 0 <= k < |trees| ==>
        Grown(trees[k], picks[k], samples[k], data, nFeatures, numSamples, maxDepth)
      invariant Chained(trees, picks, starts, pos)
      invariant forall k :: 0 <= k < |trees| ==>
        DrawnAt(trees[k], picks[k], samples[k], data, nFeatures, numSamples, draw, starts[k])
    {
      var tree, picked, sample, buildPos, p := TrainTree(data, nFeatures, numSamples, maxDepth, draw, pos);
      DrawnAtIntro(tree, picked, sample, data, nFeatures, numSamples, draw, pos, buildPos);
      AppendGrown(trees, picks, samples, [tree], [picked], [sample], data, nFeatures, numSamples, maxDepth);
      AppendOneDrawn(trees, picks, samples, starts, tree, picked, sample, pos,
                     data, nFeatures, numSamples, draw);
      ChainStep(trees, picks, starts, pos, tree, picked, p);
      trees, picks, samples, starts := trees + [tree], picks + [picked], samples + [sample], starts + [pos];
      pos := p;
    }
    forall k | 0 <= k < count
      ensures LeafSum(trees[k]) == Min(numSamples, |data|) &&
        Height(trees[k]) <= maxDepth && Fits(trees[k], nFeatures)
    {
      assert Grown(trees[k], picks[k], samples[k], data, nFeatures, numSamples, maxDepth);
    }
  }

  /** The trees of one worker so far start their draws at `starts`: the
      first at 0, each later one where its predecessor stopped, and `pos` is
      where the last one stopped. */
  predicate Chained(trees: seq<Tree>, picks: seq<seq<nat>>, starts: seq<nat>, pos: nat)
  {
    |picks| == |starts| == |trees| &&
    (|trees| == 0 ==> pos == 0) &&
    (|trees| > 0 ==>
      starts[0] == 0 &&
      pos == starts[|trees| - 1] + TreeDraws(trees[|trees| - 1], picks[|trees| - 1])) &&
    forall k :: 0 <= k < |trees| - 1 ==> starts[k + 1] == starts[k] + TreeDraws(trees[k], picks[k])
  }

  lemma ChainStep(trees: seq<Tree>, picks: seq<seq<nat>>, starts: seq<nat>, pos: nat,
                  tree: Tree, picked: seq<nat>, pos': nat)
    requires Chained(trees, picks, starts, pos)
    requires pos' == pos + TreeDraws(tree, picked)
    ensures Chained(trees + [tree], picks + [picked], starts + [pos], pos')
  {
    var t', p', s' := trees + [tree], picks + [picked], starts + [pos];
    forall k | 0 <= k < |t'| - 1
      ensures s'[k + 1] == s'[k] + TreeDraws(t'[k], p'[k])
    {
      assert s'[k] == starts[k] && t'[k] == trees[k] && p'[k] == picks[k];
      if k + 1 < |trees| {
        assert s'[k + 1] == starts[k + 1];
      }
    }
  }

  /** Appending one tree drawn from `draw` at `pos` to trees drawn from the
      same stream. */
  lemma AppendOneDrawn(trees: seq<Tree>, picks: seq<seq<nat>>, samples: seq<seq<Row>>, starts: seq<nat>,
                       tree: Tree, picked: seq<nat>, sample: seq<Row>, pos: nat,
                       data: seq<Row>, nFeatures: nat, numSamples: nat, draw: Stream)
    requires |picks| == |samples| == |starts| == |trees|
    requires forall k :: 0 <= k < |trees| ==>
      DrawnAt(trees[k], picks[k], samples[k], data, nFeatures, numSamples, draw, starts[k])
    requires DrawnAt(tree, picked, sample, data, nFeatures, numSamples, draw, pos)
    ensures forall k :: 0 <= k < |trees| + 1 ==>
      DrawnAt((trees + [tree])[k], (picks + [picked])[k], (samples + [sample])[k],
              data, nFeatures, numSamples, draw, (starts + [pos])[k])
  {
    forall k | 0 <= k < |trees| + 1
      ensures DrawnAt((trees + [tree])[k], (picks + [picked])[k], (samples + [sample])[k],
                      data, nFeatures, numSamples, draw, (starts + [pos])[k])
    {
      if k < |trees| {
        assert (trees + [tree])[k] == trees[k] && (picks + [picked])[k] == picks[k];
        assert (samples + [sample])[k] == samples[k] && (starts + [pos])[k] == starts[k];
      }
    }
  }

  /** The state of `iforest_train` once workers `0..w` have run: every tree
      written so far is grown, and each of those workers' trees is tied to
      that worker's stream, the range's first tree at position 0 and each
      later one where its predecessor stopped. */
  predicate Assigned(trees: seq<Tree>, picks: seq<seq<nat>>, samples: seq<seq<Row>>, starts: seq<nat>,
                     rs: seq<Range>, w: nat, data: seq<Row>, nFeatures: nat, numSamples: nat,
                     maxDepth: nat, streams: nat -> Stream)
    requires w <= |rs|
  {
    |picks| == |samples| == |starts| == |trees| &&
    (forall v :: 0 <= v < w ==> rs[v].hi <= |trees|) &&
    (forall k :: 0 <= k < |trees| ==>
      Grown(trees[k], picks[k], samples[k], data, nFeatures, numSamples, maxDepth)) &&
    (forall v, k :: 0 <= v < w && rs[v].lo <= k < rs[v].hi ==>
      DrawnAt(trees[k], picks[k], samples[k], data, nFeatures, numSamples, streams(v), starts[k])) &&
    (forall v :: 0 <= v < w && rs[v].lo < rs[v].hi ==> starts[rs[v].lo] == 0) &&
    (forall v, k :: 0 <= v < w && rs[v].lo <= k && k + 1 < rs[v].hi ==>
      starts[k + 1] == starts[k] + TreeDraws(trees[k], picks[k]))
  }

  /** Appending the batch of worker `w`, as `TrainRange` promises it. */
  lemma AssignStep(trees: seq<Tree>, picks: seq<seq<nat>>, samples: seq<seq<Row>>, starts: seq<nat>,
                   batch: seq<Tree>, bPicks: seq<seq<nat>>, bSamples: seq<seq<Row>>, bStarts: seq<nat>,
                   data: seq<Row>, nFeatures: nat, numSamples: nat, maxDepth: nat,
                   rs: seq<Range>, n: nat, w: nat, streams: nat -> Stream)
    requires Contiguous(rs, n) && w < |rs| && |trees| == rs[w].lo
    requires Assigned(trees, picks, samples, starts, rs, w, data, nFeatures, numSamples, maxDepth, streams)
    requires |bPicks| == |bSamples| == |bStarts| == |batch| == rs[w].hi - rs[w].lo
    requires forall k :: 0 <= k < |batch| ==>
      Grown(batch[k], bPicks[k], bSamples[k], data, nFeatures, numSamples, maxDepth)
    requires forall k :: 0 <= k < |batch| ==>
      DrawnAt(batch[k], bPicks[k], bSamples[k], data, nFeatures, numSamples, streams(w), bStarts[k])
    requires |batch| > 0 ==> bStarts[0] == 0
    requires forall k :: 0 <= k < |batch| - 1 ==>
      bStarts[k + 1] == bStarts[k] + TreeDraws(batch[k], bPicks[k])
    ensures Assigned(trees + batch, picks + bPicks, samples + bSamples, starts + bStarts, rs, w + 1,
                     data, nFeatures, numSamples, maxDepth, streams)
  {
    AppendGrown(trees, picks, samples, batch, bPicks, bSamples, data, nFeatures, numSamples, maxDepth);
    AppendDrawn(trees, picks, samples, starts, batch, bPicks, bSamples, bStarts,
                data, nFeatures, numSamples, rs, n, w, streams);
    AppendStarts(trees, picks, starts, batch, bPicks, bStarts, rs, n, w);
  }

  /** Appending a batch of grown trees to grown trees. */
  lemma AppendGrown(trees: seq<Tree>, picks: seq<seq<nat>>, samples: seq<seq<Row>>,
                    batch: seq<Tree>, bPicks: seq<seq<nat>>, bSamples: seq<seq<Row>>,
                    data: seq<Row>, nFeatures: nat, numSamples: nat, maxDepth: nat)
    requires |picks| == |samples| == |trees| && |bPicks| == |bSamples| == |batch|
    requires forall k :: 0 <= k < |trees| ==>
      Grown(trees[k], picks[k], samples[k], data, nFeatures, numSamples, maxDepth)
    requires forall k :: 0 <= k < |batch| ==>
      Grown(batch[k], bPicks[k], bSamples[k], data, nFeatures, numSamples, maxDepth)
    ensures forall k :: 0 <= k < |trees| + |batch| ==>
      Grown((trees + batch)[k], (picks + bPicks)[k], (samples + bSamples)[k],
            data, nFeatures, numSamples, maxDepth)
  {
    forall k | 0 <= k < |trees| + |batch|
      ensures Grown((trees + batch)[k], (picks + bPicks)[k], (samples + bSamples)[k],
                    data, nFeatures, numSamples, maxDepth)
    {
      if k >= |trees| {
        var j := k - |trees|;
        assert (trees + batch)[k] == batch[j] && (picks + bPicks)[k] == bPicks[j];
        assert (samples + bSamples)[k] == bSamples[j];
      }
    }
  }

  /** Appending worker `w`'s batch, drawn from `streams(w)`, keeps every tree
      of the workers so far tied to its own worker's stream. */
  lemma AppendDrawn(trees: seq<Tree>, picks: seq<seq<nat>>, samples: seq<seq<Row>>, starts: seq<nat>,
                    batch: seq<Tree>, bPicks: seq<seq<nat>>, bSamples: seq<seq<Row>>, bStarts: seq<nat>,
                    data: seq<Row>, nFeatures: nat, numSamples: nat, rs: seq<Range>, n: nat, w: nat,
                    streams: nat -> Stream)
    requires Contiguous(rs, n) && w < |rs|
    requires |picks| == |samples| == |starts| == |trees| == rs[w].lo
    requires |bPicks| == |bSamples| == |bStarts| == |batch| == rs[w].hi - rs[w].lo
    requires forall v :: 0 <= v < w ==> rs[v].hi <= |trees|
    requires forall v, k :: 0 <= v < w && rs[v].lo <= k < rs[v].hi ==>
      DrawnAt(trees[k], picks[k], samples[k], data, nFeatures, numSamples, streams(v), starts[k])
    requires forall k :: 0 <= k < |batch| ==>
      DrawnAt(batch[k], bPicks[k], bSamples[k], data, nFeatures, numSamples, streams(w), bStarts[k])
    ensures forall v :: 0 <= v < w + 1 ==> rs[v].hi <= |trees + batch|
    ensures forall v, k :: 0 <= v < w + 1 && rs[v].lo <= k < rs[v].hi ==>
      DrawnAt((trees + batch)[k], (picks + bPicks)[k], (samples + bSamples)[k],
              data, nFeatures, numSamples, streams(v), (starts + bStarts)[k])
  {
    forall v, k | 0 <= v < w + 1 && rs[v].lo <= k < rs[v].hi
      ensures k < |trees + batch|
      ensures DrawnAt((trees + batch)[k], (picks + bPicks)[k], (samples + bSamples)[k],
                      data, nFeatures, numSamples, streams(v), (starts + bStarts)[k])
    {
      if v < w {
        assert k < |trees|;
      } else {
        var j := k - |trees|;
        assert (trees + batch)[k] == batch[j] && (picks + bPicks)[k] == bPicks[j];
        assert (samples + bSamples)[k] == bSamples[j] && (starts + bStarts)[k] == bStarts[j];
      }
    }
  }

  /** Appending worker `w`'s batch keeps each range's first tree starting at
      position 0 and each later tree starting where its predecessor stopped. */
  lemma AppendStarts(trees: seq<Tree>, picks: seq<seq<nat>>, starts: seq<nat>,
                     batch: seq<Tree>, bPicks: seq<seq<nat>>, bStarts: seq<nat>,
                     rs: seq<Range>, n: nat, w: nat)
    requires Contiguous(rs, n) && w < |rs|
    requires |picks| == |starts| == |trees| == rs[w].lo
    requires |bPicks| == |bStarts| == |batch| == rs[w].hi - rs[w].lo
    requires forall v :: 0 <= v < w ==> rs[v].hi <= |trees|
    requires forall v :: 0 <= v < w && rs[v].lo < rs[v].hi ==> starts[rs[v].lo] == 0
    requires forall v, k :: 0 <= v < w && rs[v].lo <= k && k + 1 < rs[v].hi ==>
      starts[k + 1] == starts[k] + TreeDraws(trees[k], picks[k])
    requires |batch| > 0 ==> bStarts[0] == 0
    requires forall k :: 0 <= k < |batch| - 1 ==>
      bStarts[k + 1] == bStarts[k] + TreeDraws(batch[k], bPicks[k])
    ensures forall v :: 0 <= v < w + 1 && rs[v].lo < rs[v].hi ==> (starts + bStarts)[rs[v].lo] == 0
    ensures forall v, k :: 0 <= v < w + 1 && rs[v].lo <= k && k + 1 < rs[v].hi ==>
      (starts + bStarts)[k + 1] == (starts + bStarts)[k] +
        TreeDraws((trees + batch)[k], (picks + bPicks)[k])
  {
    var m := |trees|;
    forall v | 0 <= v < w + 1 && rs[v].lo < rs[v].hi
      ensures (starts + bStarts)[rs[v].lo] == 0
    {
      if v == w {
        assert (starts + bStarts)[m] == bStarts[0];
      }
    }
    forall v, k | 0 <= v < w + 1 && rs[v].lo <= k && k + 1 < rs[v].hi
      ensures (starts + bStarts)[k + 1] == (starts + bStarts)[k] +
        TreeDraws((trees + batch)[k], (picks + bPicks)[k])
    {
      if v < w {
        assert k + 1 < m;
      } else {
        var j := k - m;
        assert (starts + bStarts)[k + 1] == bStarts[j + 1] && (starts + bStarts)[k] == bStarts[j];
        assert (trees + batch)[k] == batch[j] && (picks + bPicks)[k] == bPicks[j];
      }
    }
  }

  /** Height of the tallest tree; 0 for no trees. */
  function Tallest(trees: seq<Tree>): (h: nat)
    ensures forall k :: 0 <= k < |trees| ==> Height(trees[k]) <= h
    ensures |trees| > 0 ==> exists k :: 0 <= k < |trees| && Height(trees[k]) == h
  {
    if |trees| == 0 then 0
    else Max(Tallest(trees[..|trees| - 1]), Height(trees[|trees| - 1]))
  }

  /** Sum over the trees of the path length of `x`. */
  function TotalWalk(trees: seq<Tree>, x: Row): (n: nat)
    requires forall k :: 0 <= k < |trees| ==> Fits(trees[k], |x|)
  {
    if |trees| == 0 then 0
    else TotalWalk(trees[..|trees| - 1], x) + Walk(trees[|trees| - 1], x)
  }

  lemma StepBound(total: nat, len: nat, i: nat, h: nat)
    requires total <= i * h && len <= h
    ensures total + len <= (i + 1) * h
  {
  }

  /** The mean of `n` values adding up to `total`. */
  function Mean(total: nat, n: nat): (a: real)
    requires n > 0
    ensures a * n as real == total as real
    ensures 0.0 <= a
  {
    total as real / n as real
  }

  /** A mean of `n` values of at most `h` each is at most `h`. */
  lemma MeanBound(total: nat, n: nat, h: nat)
    requires n > 0 && total <= n * h
    ensures Mean(total, n) <= h as real
  {
    assert (n * h) as real == n as real * h as real;
  }

  /** The averaging loop of `iforest_score`: the mean path length of `x`
      over all trees, never more than the tallest tree. With no trees the C
      code divides zero by zero; the model returns `None`. */
  method AveragePathLength(trees: seq<Tree>, x: Row) returns (avg: Option<real>)
    requires forall k :: 0 <= k < |trees| ==> Fits(trees[k], |x|)
    ensures avg.None? <==> |trees| == 0
    ensures avg.Some? ==> avg.value == TotalWalk(trees, x) as real / |trees| as real
    ensures avg.Some? ==> 0.0 <= avg.value <= Tallest(trees) as real
  {
    var total: nat := 0;
    var i := 0;
    ghost var h := Tallest(trees);
    while i < |trees|
      invariant i <= |trees|
      invariant total == TotalWalk(trees[..i], x)
      invariant total <= i * h
    {
      var len := PathLen(trees[i], x);
      assert trees[..i + 1][..i] == trees[..i];
      StepBound(total, len, i, h);
      total := total + len;
      i := i + 1;
    }
    assert trees[..i] == trees;
    if i == 0 {
      return None;
    }
    MeanBound(total, i, h);
    return Some(Mean(total, i));
  }
}

=== FILE: itree.dfy ===
/** Isolation trees, the path-length walk, and what it means for a tree to
    describe the partition of the rows it was built from. */
module ITree {

  /** One dataset row: its feature values. */
  type Row = seq<real>

  /** `struct itree_node`. A leaf is the C node whose `split_feature` is -1;
      both variants only ever give a node two children or none. */
  datatype Tree =
    | Leaf(size: nat)
    | Node(feat: nat, split: real, size: nat, left: Tree, right: Tree)

  function Max(a: nat, b: nat): nat { if a < b then b else a }

  /** Number of edges on the longest root-to-leaf path. */
  function Height(t: Tree): nat
  {
    match t
    case Leaf(_) => 0
    case Node(_, _, _, l, r) => 1 + Max(Height(l), Height(r))
  }

  /** Number of internal nodes: each reads two draws of `rand()` when built. */
  function Internals(t: Tree): nat
  {
    match t
    case Leaf(_) => 0
    case Node(_, _, _, l, r) => 1 + Internals(l) + Internals(r)
  }

  /** Sum of the `size` of every leaf. */
  function LeafSum(t: Tree): nat
  {
    match t
    case Leaf(n) => n
    case Node(_, _, _, l, r) => LeafSum(l) + LeafSum(r)
  }

  /** Every split feature of `t` indexes a row of `width` features. */
  predicate Fits(t: Tree, width: nat)
  {
    match t
    case Leaf(_) => true
    case Node(f, _, _, l, r) => f < width && Fits(l, width) && Fits(r, width)
  }

  /** Reference definition of the path length: the number of internal nodes
      on the way from the root to the leaf `x` is routed to, going left
      exactly when `x[feat] < split`. */
  function Walk(t: Tree, x: Row): (n: nat)
    requires Fits(t, |x|)
    ensures n <= Height(t)
  {
    match t
    case Leaf(_) => 0
    case Node(f, v, _, l, r) => 1 + (if x[f] < v then Walk(l, x) else Walk(r, x))
  }

  /** `itree_get_path_len`: the iterative walk of the C code. */
  method PathLen(t: Tree, x: Row) returns (len: nat)
    requires Fits(t, |x|)
    ensures len == Walk(t, x)
    ensures len <= Height(t)
  {
    len := 0;
    var current := t;
    while current.Node?
      invariant Fits(current, |x|)
      invariant len + Walk(current, x) == Walk(t, x)
      decreases current
    {
      if x[current.feat] < current.split {
        current := current.left;
      } else {
        current := current.right;
      }
      len := len + 1;
    }
  }

  /** `split` lies between the smallest and the largest value of feature `f`
      in `seg`. */
  predicate InHull(seg: seq<Row>, f: nat, split: real)
    requires forall i :: 0 <= i < |seg| ==> f < |seg[i]|
  {
    (exists i :: 0 <= i < |seg| && seg[i][f] <= split) &&
    (exists j :: 0 <= j < |seg| && split <= seg[j][f])
  }

  /** `t` is the isolation tree of the rows `seg`, in that order: every node
      records the number of rows that reached it, its split lies within the
      range of its feature over those rows, and its left child holds exactly
      the leading rows whose value is below the split while the right child
      holds the rest. */
  predicate Isolates(t: Tree, seg: seq<Row>)
  {
    match t
    case Leaf(n) => n == |seg|
    case Node(f, v, n, l, r) =>
      n == |seg| && l.size <= |seg| &&
      (forall i :: 0 <= i < |seg| ==> f < |seg[i]|) &&
      InHull(seg, f, v) &&
      (forall i :: 0 <= i < l.size ==> seg[i][f] < v) &&
      (forall i :: l.size <= i < |seg| ==> v <= seg[i][f]) &&
      Isolates(l, seg[..l.size]) && Isolates(r, seg[l.size..])
  }

  /** The stopping rule of the builder holds at every node of `t`, the root
      lying at `depth`: a node is a leaf exactly when it lies at or below
      `maxDepth` or holds at most one row. */
  predicate StopsAt(t: Tree, depth: nat, maxDepth: nat)
  {
    match t
    case Leaf(n) => depth >= maxDepth || n <= 1
    case Node(_, _, n, l, r) =>
      depth < maxDepth && n > 1 && StopsAt(l, depth + 1, maxDepth) && StopsAt(r, depth + 1, maxDepth)
  }

  /** The stopping rule alone bounds the depth of every leaf by `maxDepth`. */
  lemma {:induction false} StopsAtHeight(t: Tree, depth: nat, maxDepth: nat)
    requires StopsAt(t, depth, maxDepth)
    ensures depth + Height(t) <= Max(depth, maxDepth)
  {
    match t
    case Leaf(_) =>
    case Node(_, _, _, l, r) =>
      StopsAtHeight(l, depth + 1, maxDepth);
      StopsAtHeight(r, depth + 1, maxDepth);
  }

  /** Depth of the leaf that holds position `i` of the partitioned rows. */
  function DepthOf(t: Tree, i: nat): nat
  {
    match t
    case Leaf(_) => 0
    case Node(_, _, _, l, r) =>
      if i < l.size then 1 + DepthOf(l, i) else 1 + DepthOf(r, i - l.size)
  }

  /** No row is lost or duplicated: the leaves of an isolation tree of `seg`
      hold `|seg|` rows between them. */
  lemma {:induction false} IsolatesLeafSum(t: Tree, seg: seq<Row>)
    requires Isolates(t, seg)
    ensures LeafSum(t) == |seg|
  {
    match t
    case Leaf(_) =>
    case Node(_, _, _, l, r) =>
      IsolatesLeafSum(l, seg[..l.size]);
      IsolatesLeafSum(r, seg[l.size..]);
  }

  /** The right child of a split never starts empty: the row holding the
      feature's maximum is never below the split. */
  lemma RightChildNonEmpty(t: Tree, seg: seq<Row>)
    requires Isolates(t, seg) && t.Node?
    ensures t.left.size < |seg|
    ensures t.right.size >= 1
  {
    var j :| 0 <= j < |seg| && t.split <= seg[j][t.feat];
  }

  /** When the chosen feature is constant over the rows, the split equals
      that constant, nothing goes left, and the right child receives every
      row: the split makes no progress. */
  lemma ConstantFeatureSplit(t: Tree, seg: seq<Row>, c: real)
    requires Isolates(t, seg) && t.Node?
    requires forall i :: 0 <= i < |seg| ==> seg[i][t.feat] == c
    ensures t.split == c
    ensures t.left == Leaf(0)
    ensures t.right.size == |seg|
  {
    var f, v := t.feat, t.split;
    var i :| 0 <= i < |seg| && seg[i][f] <= v;
    var j :| 0 <= j < |seg| && v <= seg[j][f];
    assert v == c;
  }

  /** The walk agrees with the partition: a row the tree was built from is
      routed to the leaf that holds it. */
  lemma {:induction false} TrainingRowWalk(t: Tree, seg: seq<Row>, i: nat)
    requires Isolates(t, seg) && i < |seg|
    requires Fits(t, |seg[i]|)
    ensures Walk(t, seg[i]) == DepthOf(t, i)
  {
    match t
    case Leaf(_) =>
    case Node(f, v, _, l, r) =>
      if i < l.size {
        assert seg[..l.size][i] == seg[i];
        TrainingRowWalk(l, seg[..l.size], i);
      } else {
        assert seg[l.size..][i - l.size] == seg[i];
        TrainingRowWalk(r, seg[l.size..], i - l.size);
      }
  }
}

=== FILE: legacy.dfy ===
/** The older, root-level implementation. Its tree builder and path walk are
    the same algorithm as the current one, except that the feature count is
    read from the first row of each segment; its sampler draws with
    replacement; and its trainer splits the trees among exactly the
    configured number of threads. */
module Legacy {
  import opened Rand
  import opened ITree
  import opened Builder
  import opened Sampler
  import opened Forest

  /** Every row of `s[lo..hi]` has the same number of features. */
  predicate SameWidth(s: seq<Row>, lo: nat, hi: nat)
    requires lo <= hi <= |s|
  {
    forall i :: lo <= i < hi ==> |s[i]| == |s[lo]|
  }

  /** The feature count of the first row, which the older code takes as the
      feature count of every row; 0 for no rows. */
  function FirstWidth(s: seq<Row>): nat
  {
    if |s| > 0 then |s[0]| else 0
  }

  /** `create_node(data, start, end, depth, max_depth)` of the older code:
      the feature is `rand() % data[start].num_features`. Over rows of one
      common width this is `Build` with that width. */
  method LegacyCreateNode(s: seq<Row>, start: nat, end: nat, depth: nat, maxDepth: nat,
                          draw: Stream, pos: nat)
    returns (t: Tree, s': seq<Row>, pos': nat)
    requires start <= end <= |s|
    requires SameWidth(s, start, end)
    requires start < end && |s[start]| == 0 ==> depth >= maxDepth || end - start <= 1
    ensures Permutes(s', s, start, end)
    ensures t.size == end - start
    ensures t.Leaf? <==> depth >= maxDepth || end - start <= 1
    ensures StopsAt(t, depth, maxDepth)
    ensures Isolates(t, s'[start..end])
    ensures start < end ==> Fits(t, |s[start]|)
    ensures LeafSum(t) == end - start
    ensures depth + Height(t) <= Max(depth, maxDepth)
    ensures t.Node? ==> t.feat == RandMod(draw(pos), |s[start]|)
    ensures t.Node? ==> t.split == Threshold(s[start..end], t.feat, draw(pos + 1))
    ensures pos' == pos + 2 * Internals(t)
    ensures Drawn(t, s'[start..end], if start < end then |s[start]| else 0, draw, pos)
  {
    var width := if start < end then |s[start]| else 0;
    t, s', pos' := Build(s, width, start, end, depth, maxDepth, draw, pos);
  }

  /** The sampling loop of the older `build_trees_thread`: slot `k` gets row
      `rand() % data_size`, independently of the other slots. */
  function SampleWithReplacement(dataSize: nat, n: nat, draw: Stream, pos: nat): (idx: seq<nat>)
    requires n > 0 ==> dataSize > 0
    ensures |idx| == n
    ensures forall k :: 0 <= k < n ==> idx[k] < dataSize
    decreases n
  {
    if n == 0 then []
    else SampleWithReplacement(dataSize, n - 1, draw, pos) + [RandMod(draw(pos + n - 1), dataSize)]
  }

  /** Unlike the current sampler, the older one can pick a row twice: a
      stream of zeros picks row 0 for every slot. */
  lemma {:induction false} ReplacementMayRepeat(dataSize: nat, n: nat)
    requires dataSize > 0 && n >= 2
    ensures exists draw: Stream :: !Distinct(SampleWithReplacement(dataSize, n, draw, 0))
  {
    var zeros: Stream := (k: nat) => 0;
    var idx := SampleWithReplacement(dataSize, n, zeros, 0);
    AllZero(dataSize, n, zeros);
    assert idx[0] == idx[1];
  }

  lemma {:induction false} AllZero(dataSize: nat, n: nat, draw: Stream)
    requires dataSize > 0
    requires forall k :: draw(k) == 0
    ensures forall k :: 0 <= k < n ==> SampleWithReplacement(dataSize, n, draw, 0)[k] == 0
  {
    if n > 0 {
      AllZero(dataSize, n - 1, draw);
    }
  }

  /** One tree of the older trainer: `subsample_size` rows drawn with
      replacement from the first `data_size` rows (the count given to
      `iforest_init`), then `create_node` over exactly those slots, whose
      draws start at `buildPos`, right after the sampler's. */
  method LegacyTrainTree(data: seq<Row>, dataSize: nat, subsampleSize: nat, maxDepth: nat,
                         draw: Stream, pos: nat)
    returns (t: Tree, picked: seq<nat>, sample: seq<Row>, buildPos: nat, pos': nat)
    requires dataSize <= |data|
    requires subsampleSize > 0 ==> dataSize > 0
    requires SameWidth(data, 0, dataSize)
    requires dataSize > 0 && |data[0]| == 0 ==> maxDepth == 0 || subsampleSize <= 1
    ensures |picked| == subsampleSize
    ensures picked == SampleWithReplacement(dataSize, subsampleSize, draw, pos)
    ensures forall k :: 0 <= k < |picked| ==> picked[k] < dataSize
    ensures multiset(sample) == multiset(Gather(data, picked))
    ensures Isolates(t, sample)
    ensures LeafSum(t) == subsampleSize
    ensures Height(t) <= maxDepth
    ensures StopsAt(t, 0, maxDepth)
    ensures buildPos == pos + subsampleSize && pos' == buildPos + 2 * Internals(t)
    ensures Drawn(t, sample, FirstWidth(data), draw, buildPos)
  {
    picked := SampleWithReplacement(dataSize, subsampleSize, draw, pos);
    var gathered := Gather(data, picked);
    GatheredSameWidth(data, dataSize, picked);
    buildPos := pos + subsampleSize;
    var s';
    t, s', pos' := LegacyCreateNode(gathered, 0, subsampleSize, 0, maxDepth, draw, buildPos);
    sample := s'[0..subsampleSize];
    if 0 < subsampleSize {
      assert |gathered[0]| == FirstWidth(data);
    }
    assert sample == s';
    PermutesWhole(s', gathered);
  }

  /** Rows gathered from rows of one width share that width, which is what
      the older `create_node` reads from the sample's first row. */
  lemma GatheredSameWidth(data: seq<Row>, dataSize: nat, picked: seq<nat>)
    requires dataSize <= |data| && SameWidth(data, 0, dataSize)
    requires forall k :: 0 <= k < |picked| ==> picked[k] < dataSize
    ensures Wide(Gather(data, picked), 0, |picked|, FirstWidth(data))
    ensures SameWidth(Gather(data, picked), 0, |picked|)
  {
    var gathered := Gather(data, picked);
    forall i | 0 <= i < |picked| ensures |gathered[i]| == |gathered[0]| == FirstWidth(data) {
      assert |data[picked[i]]| == |data[0]| && |data[picked[0]]| == |data[0]|;
    }
  }

  /** The ranges of the older `iforest_train`, which uses the configured
      thread count as is: zero threads divide by zero, and more threads than
      trees leave every range but the last one empty. */
  function LegacyWorkerRanges(numThreads: nat, numTrees: nat): (r: Result<seq<Range>>)
    ensures r.Err? <==> numThreads == 0
    ensures r.Ok? ==> |r.value| == numThreads && Contiguous(r.value, numTrees)
    ensures r.Ok? ==> Balanced(r.value, numTrees)
    ensures r.Ok? && numThreads <= numTrees ==>
      forall i :: 0 <= i < numThreads ==> r.value[i].lo < r.value[i].hi
    ensures r.Ok? && numThreads > numTrees ==>
      forall i :: 0 <= i < numThreads - 1 ==> r.value[i].lo == r.value[i].hi
  {
    if numThreads == 0 then Err(DivisionByZero)
    else Ok(SplitRanges(numTrees, numThreads))
  }
}

=== FILE: rand.dfy ===
/** The C library's `rand()` as an explicit input.

    Both variants of the trainer draw every random number from the process-wide
    `rand()`. Here a stream is the sequence of values those calls return, and
    the position of the next unread value is threaded through every operation
    that consumes draws. */
module Rand {

  /** `RAND_MAX` of the GNU C library; any positive value would do. */
  const RandMax: nat := 0x7fff_ffff

  /** One value returned by `rand()`: an integer in `[0, RAND_MAX]`. */
  type RandValue = x: nat | x <= RandMax

  /** The k-th value `rand()` returns. */
  type Stream = nat -> RandValue

  /** `rand() % n` for a positive `n`: both operands are non-negative, so C's
      truncating remainder and Dafny's Euclidean one agree. The builders pick
      a feature this way, the current sampler a swap offset, and the older
      sampler a row. */
  function RandMod(raw: RandValue, n: nat): (f: nat)
    requires n > 0
    ensures f < n
    ensures raw < n ==> f == raw
  {
    raw % n
  }

  /** `rand() / (double)RAND_MAX`, computed exactly: a fraction in `[0, 1]`
      that reaches both ends. */
  function Unit(raw: RandValue): (u: real)
    ensures 0.0 <= u <= 1.0
    ensures u == 0.0 <==> raw == 0
    ensures u == 1.0 <==> raw == RandMax
  {
    raw as real / RandMax as real
  }

  /** Every residue below an `n` of at most `RAND_MAX + 1` is drawn by some
      value of `rand()`: every feature can be chosen. */
  lemma {:induction false} RandModReachesAll(n: nat, f: nat)
    requires f < n <= RandMax + 1
    ensures exists raw: RandValue :: RandMod(raw, n) == f
  {
    var raw: RandValue := f;
    assert RandMod(raw, n) == f;
  }
}

=== FILE: sampler.dfy ===
/** `ndarray_sample_without_replacement`: a partial Fisher–Yates shuffle
    (Knuth, The Art of Computer Programming, Vol. 2, section 3.4.2,
    Algorithm P) over row indices. The C code shuffles pointers to the rows;
    the model shuffles the indices those pointers are computed from. */
module Sampler {
  import opened Rand

  /** No index occurs twice. */
  predicate Distinct(xs: seq<nat>)
  {
    forall a, b :: 0 <= a < b < |xs| ==> xs[a] != xs[b]
  }

  /** `i + rand() % (total - i)`: the position swapped into slot `i`, always
      one of the slots not yet fixed. */
  function SwapIndex(i: nat, total: nat, raw: RandValue): (j: nat)
    requires i < total
    ensures i <= j < total
    ensures raw < total - i ==> j == i + raw
  {
    i + RandMod(raw, total - i)
  }

  /** Every slot not yet fixed can be drawn, as long as there are no more of
      them than `rand()` has values. */
  lemma {:induction false} SwapIndexReachesAll(i: nat, total: nat, k: nat)
    requires i <= k < total
    requires total - i <= RandMax + 1
    ensures exists raw: RandValue :: SwapIndex(i, total, raw) == k
  {
    var raw: RandValue := k - i;
    assert SwapIndex(i, total, raw) == k;
  }

  function Min(a: nat, b: nat): nat { if a < b then a else b }

  /** The row indices `0, 1, ..., total - 1`: the scratch array before any
      swap. */
  function Iota(total: nat): (xs: seq<nat>)
    ensures |xs| == total
    ensures forall k :: 0 <= k < total ==> xs[k] == k
  {
    seq(total, (k: nat) => k)
  }

  /** `xs` holds every row index below `total` exactly once. */
  predicate IsPermutation(xs: seq<nat>, total: nat)
  {
    multiset(xs) == multiset(Iota(total))
  }

  lemma {:induction false} IotaCount(total: nat, v: nat)
    ensures multiset(Iota(total))[v] == if v < total then 1 else 0
  {
    if total > 0 {
      assert Iota(total) == Iota(total - 1) + [total - 1];
      IotaCount(total - 1, v);
    }
  }

  /** A permutation of the row indices has no repeats and no index out of
      range. */
  lemma PermutationDistinct(xs: seq<nat>, total: nat)
    requires IsPermutation(xs, total)
    ensures |xs| == total
    ensures forall k :: 0 <= k < |xs| ==> xs[k] < total
    ensures Distinct(xs)
  {
    assert |xs| == |multiset(xs)| == |multiset(Iota(total))| == total;
    forall k | 0 <= k < |xs|
      ensures xs[k] < total
    {
      assert xs[k] in multiset(Iota(total));
      IotaCount(total, xs[k]);
    }
    forall a, b | 0 <= a < b < |xs|
      ensures xs[a] != xs[b]
    {
      if xs[a] == xs[b] {
        var v := xs[a];
        assert xs == xs[..b] + [xs[b]] + xs[b + 1..];
        assert xs[..b][a] == v;
        assert multiset(xs)[v] >= 2;
        IotaCount(total, v);
        assert false;
      }
    }
  }

  /** A permutation of the row indices contains each of them. */
  lemma PermutationContains(xs: seq<nat>, total: nat, v: nat)
    requires IsPermutation(xs, total) && v < total
    ensures exists j :: 0 <= j < |xs| && xs[j] == v
  {
    IotaCount(total, v);
    assert v in multiset(xs);
  }

  /** One step of the shuffle: swap slot `i` with slot `i + raw % (|xs| - i)`. */
  function SwapStep(xs: seq<nat>, i: nat, raw: RandValue): (ys: seq<nat>)
    requires i < |xs|
    ensures |ys| == |xs|
    ensures ys[..i] == xs[..i]
    ensures ys[i] == xs[SwapIndex(i, |xs|, raw)]
  {
    var j := SwapIndex(i, |xs|, raw);
    xs[i := xs[j]][j := xs[i]]
  }

  /** A swap only rearranges the scratch array. */
  lemma SwapStepPermutes(xs: seq<nat>, i: nat, raw: RandValue)
    requires i < |xs|
    ensures multiset(SwapStep(xs, i, raw)) == multiset(xs)
  {
  }

  /** The scratch array after the first `n` swaps, slot `k` swapped with
      the slot drawn by `draw(pos + k)`. */
  function Shuffled(total: nat, n: nat, draw: Stream, pos: nat): (xs: seq<nat>)
    requires n <= total
    ensures |xs| == total
    decreases n
  {
    if n == 0 then Iota(total)
    else SwapStep(Shuffled(total, n - 1, draw, pos), n - 1, draw(pos + n - 1))
  }

  /** One more swap: the `n`-th step acts on the array left by the first
      `n - 1`. */
  lemma ShuffledStep(total: nat, n: nat, draw: Stream, pos: nat)
    requires 0 < n <= total
    ensures Shuffled(total, n, draw, pos)
         == SwapStep(Shuffled(total, n - 1, draw, pos), n - 1, draw(pos + n - 1))
  {
  }

  /** Swapping keeps the scratch array a permutation of the row indices. */
  lemma {:induction false} ShuffledPermutation(total: nat, n: nat, draw: Stream, pos: nat)
    requires n <= total
    ensures IsPermutation(Shuffled(total, n, draw, pos), total)
  {
    if n > 0 {
      ShuffledPermutation(total, n - 1, draw, pos);
      SwapStepPermutes(Shuffled(total, n - 1, draw, pos), n - 1, draw(pos + n - 1));
    }
  }

  /** `draw` with the draw at `at` replaced by `raw`. */
  function Redraw(draw: Stream, at: nat, raw: RandValue): (d: Stream)
    ensures d(at) == raw
    ensures forall k :: k != at ==> d(k) == draw(k)
  {
    (k: nat) => if k == at then raw else draw(k)
  }

  /** The first `n` swaps read only the draws `pos .. pos + n - 1`. */
  lemma {:induction false} ShuffledFrame(total: nat, n: nat, d1: Stream, d2: Stream, pos: nat)
    requires n <= total
    requires forall k :: pos <= k < pos + n ==> d1(k) == d2(k)
    ensures Shuffled(total, n, d1, pos) == Shuffled(total, n, d2, pos)
  {
    if n > 0 {
      ShuffledFrame(total, n - 1, d1, d2, pos);
    }
  }

  /** A row not among the first `m` slots of a permutation sits in a later
      slot. */
  lemma LocateRemaining(t: seq<nat>, total: nat, m: nat, v: nat)
    requires IsPermutation(t, total) && |t| == total && m <= total && v < total
    requires forall k :: 0 <= k < m ==> t[k] != v
    ensures exists j :: m <= j < total && t[j] == v
  {
    PermutationContains(t, total, v);
    PermutationDistinct(t, total);
  }

  /** After the first `n - 1` rows of `want` are in place, its next row sits
      in a later slot. */
  lemma NextRowLater(total: nat, want: seq<nat>, pos: nat, draw0: Stream, t: seq<nat>)
    requires 0 < |want| <= total
    requires Distinct(want)
    requires want[|want| - 1] < total
    requires t == Shuffled(total, |want| - 1, draw0, pos)
    requires t[..|want| - 1] == want[..|want| - 1]
    ensures exists j :: |want| - 1 <= j < total && t[j] == want[|want| - 1]
  {
    var n := |want|;
    var v := want[n - 1];
    ShuffledPermutation(total, n - 1, draw0, pos);
    forall k | 0 <= k < n - 1
      ensures t[k] != v
    {
      assert t[k] == t[..n - 1][k] == want[k];
    }
    LocateRemaining(t, total, n - 1, v);
  }

  /** With the first `n - 1` swaps fixed, the `n`-th draw `raw` completes
      the selection. */
  lemma PickedSample(total: nat, want: seq<nat>, pos: nat, draw: Stream, t: seq<nat>, raw: RandValue)
    requires 0 < |want| <= total
    requires Shuffled(total, |want| - 1, draw, pos) == t
    requires t[..|want| - 1] == want[..|want| - 1]
    requires draw(pos + |want| - 1) == raw
    requires t[SwapIndex(|want| - 1, total, raw)] == want[|want| - 1]
    ensures Shuffled(total, |want|, draw, pos)[..|want|] == want
  {
    var n := |want|;
    var r := Shuffled(total, n, draw, pos);
    ShuffledStep(total, n, draw, pos);
    assert r[..n - 1] == t[..n - 1] && r[n - 1] == t[SwapIndex(n - 1, total, raw)];
    PrefixSnoc(r, want);
  }

  /** A sequence that agrees with `w` below its last position and at that
      position has `w` as its prefix. */
  lemma PrefixSnoc(r: seq<nat>, w: seq<nat>)
    requires 0 < |w| <= |r|
    requires r[..|w| - 1] == w[..|w| - 1]
    requires r[|w| - 1] == w[|w| - 1]
    ensures r[..|w|] == w
  {
    var n := |w|;
    forall k | 0 <= k < n
      ensures r[k] == w[k]
    {
      if k < n - 1 {
        assert r[k] == r[..n - 1][k];
        assert w[k] == w[..n - 1][k];
      }
    }
  }

  /** Every ordered selection of distinct rows is the outcome of some
      sequence of draws, as long as the dataset has no more rows than
      `rand()` has values: at each step, every row not yet chosen can be
      swapped into place. */
  lemma {:induction false} EverySampleReachable(total: nat, want: seq<nat>, pos: nat)
    requires |want| <= total <= RandMax + 1
    requires Distinct(want)
    requires forall k :: 0 <= k < |want| ==> want[k] < total
    ensures exists draw: Stream :: Shuffled(total, |want|, draw, pos)[..|want|] == want
  {
    var n := |want|;
    if n == 0 {
      var zeros: Stream := (k: nat) => 0;
      assert Shuffled(total, 0, zeros, pos)[..0] == want;
    } else {
      // draws that pick the first n - 1 rows extend to draws that pick all n
      EverySampleReachable(total, want[..n - 1], pos);
      var draw0: Stream :| Shuffled(total, n - 1, draw0, pos)[..n - 1] == want[..n - 1];
      var t := Shuffled(total, n - 1, draw0, pos);
      NextRowLater(total, want, pos, draw0, t);
      var j :| n - 1 <= j < total && t[j] == want[n - 1];
      SwapIndexReachesAll(n - 1, total, j);
      var raw: RandValue :| SwapIndex(n - 1, total, raw) == j;
      var draw1 := Redraw(draw0, pos + n - 1, raw);
      ShuffledFrame(total, n - 1, draw0, draw1, pos);
      PickedSample(total, want, pos, draw1, t, raw);
    }
  }

  /** The rows the sampler returns for the draws from `pos` on: the first
      `min(requested, total)` slots after that many swaps. */
  function Sample(total: nat, requested: nat, draw: Stream, pos: nat): (rows: seq<nat>)
    ensures |rows| == Min(requested, total)
  {
    var n := Min(requested, total);
    Shuffled(total, n, draw, pos)[..n]
  }

  /** The first loop of `ndarray_sample_without_replacement`: slot `i` of
      the scratch array starts out pointing at row `i`. */
  method Identity(total: nat) returns (temp: seq<nat>)
    ensures temp == Iota(total)
  {
    temp := [];
    var i := 0;
    while i < total
      invariant i <= total && |temp| == i
      invariant forall k :: 0 <= k < i ==> temp[k] == k
    {
      temp := temp + [i];
      i := i + 1;
    }
  }

  /** `ndarray_sample_without_replacement`: draws `min(requested, total)`
      row indices of a `total`-row dataset. `size` is the clamped count the C
      code writes back through its pointer argument; `pos'` is the first draw
      left unread. */
  method SampleWithoutReplacement(total: nat, requested: nat, draw: Stream, pos: nat)
    returns (size: nat, rows: seq<nat>, pos': nat)
    ensures size == Min(requested, total)
    ensures rows == Sample(total, requested, draw, pos)
    ensures |rows| == size
    ensures forall k :: 0 <= k < |rows| ==> rows[k] < total
    ensures Distinct(rows)
    ensures size == total ==> IsPermutation(rows, total)
    ensures pos' == pos + size
  {
    size := if requested < total then requested else total;
    var temp := Identity(total);
    assert temp == Shuffled(total, 0, draw, pos);
    var i := 0;
    while i < size
      invariant i <= size
      invariant temp == Shuffled(total, i, draw, pos)
    {
      ShuffledStep(total, i + 1, draw, pos);
      temp := SwapStep(temp, i, draw(pos + i));
      i := i + 1;
    }
    rows := temp[..size];
    ShuffledPrefix(total, size, draw, pos);
    pos' := pos + size;
  }

  /** The first `n` slots after `n` swaps are distinct row indices, and all
      of them when `n == total`. */
  lemma ShuffledPrefix(total: nat, n: nat, draw: Stream, pos: nat)
    requires n <= total
    ensures forall k :: 0 <= k < n ==> Shuffled(total, n, draw, pos)[..n][k] < total
    ensures Distinct(Shuffled(total, n, draw, pos)[..n])
    ensures n == total ==> IsPermutation(Shuffled(total, n, draw, pos)[..n], total)
  {
    var t := Shuffled(total, n, draw, pos);
    ShuffledPermutation(total, n, draw, pos);
    PermutationDistinct(t, total);
    var rows := t[..n];
    forall k | 0 <= k < n
      ensures rows[k] < total
    {
      assert rows[k] == t[k];
    }
    forall a, b | 0 <= a < b < n
      ensures rows[a] != rows[b]
    {
      assert rows[a] == t[a] && rows[b] == t[b];
    }
    assert n == total ==> rows == t;
  }
}
